=== FILE: README.md ===
# PSIOP voice model

A Dafny model of the sound engine of FehlerFabrik's PSIOP, a four-operator
FM percussion voice for VCV Rack. The model covers:

- the attack/decay envelope generator `Ramp`;
- the wavetable FM `Operator`;
- the constant tables: the 6 × 4 × 5 modulation matrix, the 32 ratio
  selections into the 23 FM frequency ratios, and the 64 wavetable
  selections;
- one call of `PSIOP::process`. A trigger latches the clamped controls and
  picks the accent preset. A choke zeroes the three ramps. The two amplitude
  ramps and the pitch ramp advance. The pitch is `crossfade(endPitch,
  startPitch, out)` of the pitch ramp, used while the pitch speed
  `rates[2]` exceeds 0.2. The ramp rises to 1 with the 1e-3 s time constant
  and then falls with the time constant `1e-3 * 2^(20 * (1 - rates[2]))`,
  from 1e-3 s at full speed to just under `2^16 * 1e-3` s just above the
  threshold. The ramp runs in cycle mode, so the end of each fall re-arms
  it: the pitch jumps back to the start pitch and sweeps again toward the
  end pitch, over and over. Operators 0..3 are then updated in
  place, each one's FM input read through the modulation matrix. Their
  outputs are mixed into one sample scaled by 4 and the level.

Modules follow the source's structure:

| file | module | models |
|---|---|---|
| `rackmath.dfy` | `RackMath` | `sgn`, `crossfade`, `clamp` and the C++ `(int)` cast |
| `host.dfy` | `Host` | the abstract numeric services: `pow`, `M_E`, `FREQ_C4`, `eucMod`, the wavetable read, the ratio values |
| `tables.dfy` | `Tables` | `modMatrix`, `ratioMatrix`, `tableMatrix` |
| `ramps.dfy` | `Ramps` | `Ramp` |
| `operators.dfy` | `Operators` | `Operator` |
| `voice.dfy` | `Voice` | `PSIOP::process` and the state it keeps between calls |

The state is immutable: a `Voice` value holds the four operators, the three
ramps and the latched parameters. `Voice.Tick` maps a voice and one tick's
`Controls` to the next voice, the output sample and the four debug taps.
Floating point is modelled by `real`. The library functions the engine calls
(`pow`, `eucMod`, `interpolateLinear` over the wavetable bank) are fields of
a `Host` value. The predicate `Host.Valid` states the only facts the proofs
use about them: `M_E` and `FREQ_C4` are positive; `2^x` is positive,
monotone, 1 at 0 and 2^20 at 20; `eucMod(x, 1)` lies in [0, 1); the bank holds at least 8 tables; and the 23 ratios are
positive.

Three consequences of the code that the model makes explicit:

- The phase wrap tests `>= 0.5` and `<= -0.5` once per step. For a phase
  advanced by less than one period, a wrapped phase therefore lies in the
  closed interval [-0.5, 0.5], and both ends are reached
  (`Operators.WrapReachesBothEnds`). A larger advance is shifted by one
  period only and can stay outside that interval.
- The operator loop updates `operators[i]` in place, and operator i's FM
  input is summed over all four operators as they stand at that moment.
  Every algorithm's FM routing is strictly feed-forward: only j < i feeds
  i, and there are no self or mutual loops. So each operator is modulated
  by outputs computed earlier in the same tick, never by last tick's
  (`Voice.SameTickFm`, `Tables.FmIsFeedForward`).
- `feedbackSample` is the average of `bufferSample1` and `bufferSample2`,
  and both hold this step's raw sample, so `feedbackSample == wave`.
  Self-feedback therefore reaches back exactly one step, with no smoothing
  (`Operators.FeedbackUsesPreviousWave`).

## Model

| member | source | states |
|---|---|---|
| RackMath.Sgn | src/PSIOP.hpp:33-36 | the sign is 1, 0 or -1; times the argument it gives the magnitude; it is 0 exactly for 0 |
| RackMath.CrossfadeBetween | src/PSIOP.cpp:180-182 | a crossfade with weight in [0, 1] lies between its two ends, and hits each end at weight 0 and 1 |
| RackMath.CrossfadeKeepsSign | src/PSIOP.hpp:37-42 | a crossfade (weight below 1) of two rates of the same strict sign has that sign |
| RackMath.Clamp | src/PSIOP.cpp:113 | the result lies in [lo, hi], equals an in-range input, and sticks to the nearer end otherwise |
| RackMath.ClampInt | src/PSIOP.cpp:122 | the integer clamp of a selection: within [lo, hi], in-range values unchanged, out-of-range values at the nearer end (no wrap) |
| RackMath.Truncate | src/PSIOP.cpp:120 | the `(int)` cast rounds toward zero: within one below a non-negative value, within one above a negative one |
| Host.SomeHostIsValid | src/PSIOP.hpp:171-175 | the assumptions made of the numeric services and the 23 ratios can all be met together |
| Tables.ModMatrixShape | src/PSIOP.hpp:159-167 | the modulation matrix has 6 algorithms of 4 source rows of 5 destinations |
| Tables.FmIsFeedForward | src/PSIOP.hpp:159-167 | in every algorithm an operator modulates only higher-numbered operators: no self-modulation, no backward routing |
| Tables.ModMatrixWeights | src/PSIOP.hpp:159-167 | every routing weight lies in [0, 1], and every algorithm's mix weights sum to more than 0 and at most 1 |
| Tables.Algorithm | src/PSIOP.hpp:159-167 | one algorithm's routing: shape, feed-forward FM, weights in [0, 1], and total mix weight in (0, 1] |
| Tables.RatioSelectionsInRange | src/PSIOP.hpp:178-179 | each of the 32 ratio selections names four valid indices of the 23-entry ratio table |
| Tables.RatioSelection | src/PSIOP.hpp:178-179 | a ratio selection in range is a row of four valid ratio-table indices |
| Tables.WaveSelectionsInRange | src/PSIOP.hpp:182-183 | each of the 64 wave selections names four of the 8 wavetables |
| Tables.WaveSelectionsArePairs | src/PSIOP.hpp:182-183 | the wave selections enumerate every pair of wavetables in order: selection r puts operators 0 and 2 on table r / 8 and operators 1 and 3 on table r % 8 |
| Tables.WaveSelection | src/PSIOP.hpp:182-183 | wave selection `sel` is the row `[sel / 8, sel % 8, sel / 8, sel % 8]`, both tables in the bank |
| Ramps.ShapeDelta | src/PSIOP.hpp:31-44 | with shape 0 the rate is the linear rate `sgn(delta) * 10 / tau`; for any shape in [-1, 1] the rate has the sign of the remaining distance, so the ramp always heads for its target |
| Ramps.RatesFollowDelta | src/PSIOP.hpp:33-41 | the linear, logarithmic and exponential rates each have the sign of the remaining distance |
| Ramps.ShapeKeepsSign | src/PSIOP.hpp:37-42 | crossfading two rates that both follow the distance's sign, with weight below 1 (at most 0.95), keeps that sign, including zero |
| Ramps.RiseTime | src/PSIOP.hpp:65-66 | the rise time constant is positive, and is the minimum time 1e-3 at rate 0 |
| Ramps.FallTime | src/PSIOP.hpp:77-80 | the fall time constant lies in [1e-3, 1e-3 * 2^20] for any rate, with the ends reached at rates <= 0 and >= 1 |
| Ramps.Step | src/PSIOP.hpp:48-102 | after a step the output is on the target or more than 1e-3 from it; a finished rise clears the gate; a finished fall sets the gate in cycle mode only; on target, the gate clears; the output moves toward the target and never overshoots; for time > 0 and shape in [-1, 1] an output off the target gets strictly closer to it |
| Ramps.StepKeepsUnitRange | src/PSIOP.hpp:56-101 | a ramp output in [0, 1] stays in [0, 1] after a step |
| Ramps.IdleIsFixedPoint | src/PSIOP.hpp:50-101 | a ramp at rest stays at rest, in cycle mode too |
| Ramps.LinearRiseStep | src/PSIOP.hpp:61-101 | with the linear shape and rise rate 0 a gated ramp below 1 reaches 1 or rises by exactly `10 * time / 1e-3` |
| Ramps.LinearFallStep | src/PSIOP.hpp:74-101 | with the linear shape an unfinished fall lowers the output by exactly `10 * time / tau` |
| Ramps.LinearFallSettles | src/PSIOP.hpp:74-101 | decay converges: an ungated ramp with the linear shape and no cycling is at rest after any n steps whose total linear fall covers its output |
| Operators.SetPitch | src/PSIOP.hpp:116-120 | setting the pitch gives a positive frequency and changes nothing else |
| Operators.ApplyRatio | src/PSIOP.hpp:122-125 | applying a positive ratio keeps the frequency positive and changes nothing else |
| Operators.TuningForgetsPreviousFrequency | src/PSIOP.hpp:116-125 | pitch-then-ratio gives `FREQ_C4 * 2^pitch * ratio` whatever the operator's previous frequency |
| Operators.WrapPhase | src/PSIOP.hpp:129-137 | the wrap moves the phase by at most one period, brings any phase in (-1.5, 1.5) into [-0.5, 0.5], and leaves the open interior alone |
| Operators.WrapReachesBothEnds | src/PSIOP.hpp:130-137 | -0.5 wraps to 0.5 and 0.5 wraps to -0.5: the wrapped range is closed |
| Operators.Process | src/PSIOP.hpp:127-154 | the new phase is the advanced phase shifted by at most one period and stays in [-0.5, 0.5] for sub-period increments; the frequency is kept; the output is the raw sample times the amplitude; both buffers and the feedback sample hold the raw sample; the read position is the wrapped phase plus feedback times the previous feedback sample |
| Operators.ZeroAmplitudeIsSilent | src/PSIOP.hpp:149 | with amplitude 0 the output is 0 |
| Operators.FeedbackUsesPreviousWave | src/PSIOP.hpp:139-153 | over two steps the second read is offset by feedback times the first step's raw sample |
| Operators.PhaseStaysWrapped | src/PSIOP.hpp:129-137 | over any number of steps with sub-period increments the phase stays in [-0.5, 0.5] and the frequency is unchanged |
| Voice.InitialIsValid | src/PSIOP.cpp:55-71 | the power-on state (silent operators, ramps at rest, index 0.6, level 1) meets the voice invariant |
| Voice.Latch | src/PSIOP.cpp:95-146 | the accent edge picks index 1 and level 1.8, otherwise 0.6 and 1; each latched value (start and end pitch, ratio, wave and algorithm selections, feedback, the three rates) is its knob-plus-CV sum clamped to its range, so in-range sums pass through and out-of-range ones stick to the nearest end; the fine knob is kept |
| Voice.LatchRate | src/PSIOP.cpp:140-146 | a latched rate lies in [0, 1]: knob plus 0.2 × CV (the CV of the second rate scaled by its attenuator first), unchanged inside [0, 1] and at the nearer end outside it |
| Voice.Strike | src/PSIOP.cpp:148-153 | a trigger sets all three gates and leaves the outputs |
| Voice.Choke | src/PSIOP.cpp:156-165 | a choke puts all three ramps at rest |
| Voice.EdgeRamps | src/PSIOP.cpp:148-165 | a choke wins over a simultaneous trigger; a trigger alone strikes; no edge leaves the ramps unchanged |
| Voice.AdvanceKeepsUnitRange | src/PSIOP.cpp:167-183 | advancing the three ramps keeps every output in [0, 1] |
| Voice.Pitch | src/PSIOP.cpp:174-183 | at a pitch-ramp rate <= 0.2 the pitch is the start pitch; above it the pitch is the start pitch with the ramp at 1, the end pitch with the ramp at 0, and between the two pitches for a ramp in [0, 1] |
| Voice.Glide | src/PSIOP.cpp:173-183 | at a pitch-ramp rate <= 0.2 the pitch is the start pitch and the pitch ramp is untouched; above it the pitch ramp steps with shape 0.3, fall rate `1 - rate` and cycling, and the pitch is `crossfade(endPitch, startPitch, out)` of the stepped ramp, lying between the two pitches |
| Voice.LatchedParams | src/PSIOP.cpp:95-146 | the parameters in force after the edges are always within their clamps |
| Voice.RatioFor | src/PSIOP.cpp:194 | operator i uses the ratio-table entry `ratios[ratioMatrix[ratioIndex][i]]` of the latched selection; the index is valid and the ratio positive |
| Voice.RatiosFor | src/PSIOP.cpp:193-195 | the four operators' ratios are `ratios[ratioMatrix[ratioIndex][i]]` for i = 0..3, each positive |
| Voice.RoutesFor | src/PSIOP.cpp:197-203 | the routing of the latched algorithm is the modulation matrix row, feed-forward, with mix weights in [0, 1] summing to at most 1 |
| Voice.TablesFor | src/PSIOP.cpp:208-219 | operators 0 and 2 read wavetable `selection / 8` and operators 1 and 3 wavetable `selection % 8`, all in the bank |
| Voice.DriveFor | src/PSIOP.cpp:173-219 | the per-tick inputs of the operator loop: pitch from the pitch ramp, operators 0/2 on ramp 0 and 1/3 on ramp 1, latched index and feedback, the algorithm's routing, the selected ratios and tables |
| Voice.Tick | src/PSIOP.cpp:91-228 | a tick keeps the state well formed; parameters change on a trigger tick and only then; debug output i carries operator i's new output |
| Voice.RunOperatorsInPlace | src/PSIOP.cpp:188-224 | the loop updates operator k from the operators as they stand at its turn: this tick's values below k, last tick's from k on |
| Voice.FmReadsOnlyEarlier | src/PSIOP.cpp:199-203 | an operator's FM input depends only on the outputs of lower-numbered operators |
| Voice.SameTerm | src/PSIOP.cpp:202 | one source's FM contribution is the same when its outputs agree or when it is not routed to the destination |
| Voice.SameTickFm | src/PSIOP.cpp:197-219 | each operator is processed with the FM input computed from this tick's outputs |
| Voice.UpdatedOperator | src/PSIOP.cpp:190-219 | an updated operator is tuned to `FREQ_C4 * 2^pitch * ratio`, scaled by its amplitude ramp, silent at amplitude 0, and reads its wavetable at its phase offset by its own feedback |
| Voice.TickedOperator | src/PSIOP.cpp:188-224 | the same facts for each operator after the whole loop |
| Voice.PassPairing | src/PSIOP.cpp:205-219 | operators 0 and 2 are scaled by the first amplitude and 1 and 3 by the second |
| Voice.PassSilent | src/PSIOP.cpp:205-219 | with both amplitudes 0 every operator output is 0 |
| Voice.PassTuning | src/PSIOP.cpp:190-195 | every operator is tuned to `FREQ_C4 * 2^pitch * ratio` for its own ratio |
| Voice.PassFeedback | src/PSIOP.cpp:206-219 | only operator 0's read is offset by feedback; the others read at their phase; the operators read from the selected pair of tables |
| Voice.WeightedSumWithinUnit | src/PSIOP.cpp:222 | a weighted sum of four values in [-1, 1], with non-negative weights summing to at most 1, lies in [-1, 1] |
| Voice.MixWithinUnit | src/PSIOP.cpp:221-222 | with outputs in [-1, 1] the mix lies in [-1, 1] |
| Voice.LevelledMix | src/PSIOP.cpp:221-227 | the mix is the dot product of the outputs with the algorithm's mix column; with outputs in [-1, 1] the sample lies within 4 times the level |
| Voice.SilentMix | src/PSIOP.cpp:221-227 | silent operators give a silent sample |
| Voice.SampleIsWeightedMix | src/PSIOP.cpp:221-227 | the sample is 4 × level × the dot product of the new outputs with the latched algorithm's mix column, and lies within ±4 × level for outputs in [-1, 1] |
| Voice.ChokeSilences | src/PSIOP.cpp:156-227 | a choke silences the voice in the same tick, with or without a trigger: ramps at rest, every operator output 0, sample 0 |
| Voice.TriggerRestrikes | src/PSIOP.cpp:95-171 | a trigger without a choke latches new values, and both amplitude ramps rise toward 1 from where they stood, strictly when the sample time is positive, keeping their gate until they arrive |
| Voice.PitchGlide | src/PSIOP.cpp:173-195 | the tick's pitch follows the glide rule, and every operator's frequency is `FREQ_C4 * 2^pitch * ratio` |
| Voice.OperatorPairing | src/PSIOP.cpp:205-219 | after a tick operators 0 and 2 are scaled by amplitude ramp 0 and operators 1 and 3 by ramp 1 |
| Voice.FeedbackOnlyOnFirst | src/PSIOP.cpp:206-219 | after a tick only operator 0 reads with feedback (latched amount × its previous sample); operators 0 and 2 read table `selection / 8`, operators 1 and 3 table `selection % 8` |
| Voice.TickPreservesInvariant | src/PSIOP.cpp:91-228 | a tick with non-negative sample time keeps the state well formed, the latched values in range and every ramp in [0, 1] |

## Left out

- Audio I/O, jacks, lights, the widget and `configParam`: the model starts
  from the values a tick reads (`Controls`) and ends at the values it writes
  (`Output`).
- Floating-point rounding: `real` is exact, so the model does not show
  float effects such as an output landing 1e-7 past 1.
- `pow`, `M_E`, `FREQ_C4`, `eucMod`, `interpolateLinear` and the wavetable
  data (`wavetable_opal`): these are outside the engine's source. They are
  abstract `Host` services, and only the facts in `Host.Valid` are assumed.
  All 23 frequency ratios are known only to be positive.
- `dsp::SchmittTrigger`: each of the trigger, accent and choke detectors is
  a per-tick boolean "edge seen". The source consults the accent detector
  only on trigger ticks, so an accent edge on any other tick is lost. The
  model cannot show this, because it does not keep detector state.
- `(int)round(cv * attenuator)` for the ratio and wave inputs and
  `(int)round(cv)` for the algorithm input: the model takes the rounded
  offsets as integer inputs. The knob cast
  `(int)` is modelled (`RackMath.Truncate`).
- `Ramp.endOfCyclePulse` and the unused `Ramp.shape` field: nothing in the
  voice reads them. `DCBlock` (src/PSIOP.hpp:4-20) is defined but never
  called by `PSIOP::process`.
- Ramps.ShapeDelta: requires a positive time constant. Every caller's time
  constant is `1e-3 * 2^x` and positive, so nothing is excluded in the voice.
- Ramps.RiseTime: the rise rate is not clamped (as in the source). The only
  facts stated are positivity and the value at rate 0, which is the only
  rise rate the voice passes.
- Voice.AdvanceRamps: has no contract of its own beyond its length. What it
  does is stated through `Voice.Glide`, `Voice.AdvanceKeepsUnitRange`,
  `Voice.TriggerRestrikes` and `Voice.ChokeSilences`.
- Voice.Mix, Voice.FmInput, Voice.OperatorTick, Voice.RunOperators,
  Voice.Level, Voice.Taps: these functions compute and carry no
  meaning-level contract. Their behaviour is stated by the lemmas that
  cite the same lines (`Voice.LevelledMix`, `Voice.SampleIsWeightedMix`,
  `Voice.FmReadsOnlyEarlier`, `Voice.RunOperatorsInPlace`,
  `Voice.UpdatedOperator`, and `Voice.Tick` for the debug taps).
- Voice.Amplitude, Voice.FeedbackFor, Voice.Tuned, Voice.Gliding: helpers
  with no contract of their own. The ramp-to-operator pairing is stated by
  `Voice.PassPairing` and `Voice.OperatorPairing`. Feedback on operator 0
  only is stated by `Voice.PassFeedback` and `Voice.FeedbackOnlyOnFirst`.
  The tuning is stated by `Voice.PassTuning` and `Voice.UpdatedOperator`.
  The `rates[2] > 0.2` test is stated by `Voice.Pitch` and `Voice.Glide`.
- Voice.Tick: the output range of the sample (`Voice.SampleIsWeightedMix`)
  assumes operator outputs in [-1, 1]. The wavetable data is not part of
  the model, so that range cannot be derived.
- The gathering of the loop's inputs into `Voice.Drive`: the source
  re-reads them on every iteration. None of them changes inside the loop,
  so the values are the same.

=== FILE: host.dfy ===
/** The numeric services the voice takes from outside its own source files:
    the C library's `pow(2, x)`, the constant `M_E`, the framework's
    reference pitch `FREQ_C4` and its `eucMod`, the linear-interpolating
    wavetable read over the wavetable bank, and the values of the 23 FM
    frequency ratios (several of which are irrational). They are kept
    abstract: a `Host` carries them as values, and `Valid` states the only
    facts about them the voice relies on. */
module Host {
  import opened Tables

  datatype Host = Host(
    e: real,                      // M_E
    freqC4: real,                 // reference frequency of pitch 0
    pow2: real -> real,           // x |-> 2^x
    eucMod1: real -> real,        // x |-> eucMod(x, 1)
    readWave: (int, real) -> real, // (table, position in [0,1)) |-> interpolated sample
    waveCount: int,               // number of wavetables in the bank
    ratios: seq<real>             // fm_frequency_ratios
  )

  /** `pow(2, x)`. */
  function Pow2(h: Host, x: real): real {
    h.pow2(x)
  }

  /** `eucMod(x, 1)`. */
  function EucMod1(h: Host, x: real): real {
    h.eucMod1(x)
  }

  /** The interpolated sample of wavetable `table` at fraction `position` of
      its length. */
  function ReadWave(h: Host, table: int, position: real): real {
    h.readWave(table, position)
  }

  /** `2^20`, the span of the ramp time constants. */
  const TwoPow20: real := 1048576.0

  ghost predicate Valid(h: Host) {
    && h.e > 0.0
    && h.freqC4 > 0.0
    && (forall x :: Pow2(h, x) > 0.0)
    && Pow2(h, 0.0) == 1.0
    && Pow2(h, 20.0) == TwoPow20
    && (forall x, y :: x <= y ==> Pow2(h, x) <= Pow2(h, y))
    && (forall x :: 0.0 <= EucMod1(h, x) < 1.0)
    && h.waveCount >= WaveTableCount
    && |h.ratios| == RatioTableLength
    && (forall k | 0 <= k < |h.ratios| :: h.ratios[k] > 0.0)
  }

  /** The facts in `Valid` are consistent: a crude host (piecewise-linear
      stand-in for `pow`, the fractional part for `eucMod`, a silent bank,
      rational approximations of the irrational ratios) meets them all. */
  lemma SomeHostIsValid()
    ensures exists h :: Valid(h)
  {
    var pow2 := (x: real) => if x <= 0.0 then 1.0 else 1.0 + x * 52428.75;
    var frac := (x: real) => x - x.Floor as real;
    var ratios := [0.5, 0.5047, 0.7071, 0.7854, 1.0, 1.0093, 1.4142, 1.5708]
                + [1.75, 2.0, 2.0187, 2.25, 2.75, 2.8284, 3.0, 3.1416]
                + [3.4641, 4.0, 4.2426, 4.7124, 5.0, 5.6569, 8.0];
    var h := Host(2.718, 261.6256, pow2, frac, (t: int, p: real) => 0.0, 8, ratios);
    assert forall x :: Pow2(h, x) > 0.0;
    assert forall x, y :: x <= y ==> Pow2(h, x) <= Pow2(h, y);
    assert forall x :: 0.0 <= EucMod1(h, x) < 1.0;
    assert forall k | 0 <= k < |h.ratios| :: h.ratios[k] > 0.0;
    assert Valid(h);
  }
}

=== FILE: operators.dfy ===
/** The wavetable FM operator (`Operator`): a phase accumulator wrapped once
    per step, a frequency set from pitch and ratio on every tick, a
    wavetable read whose position can be offset by self-feedback, and an
    output that is the raw wave sample times the amplitude. */
module Operators {
  import opened Host

  datatype Operator = Operator(
    phase: real,
    freq: real,
    wave: real,
    out: real,
    bufferSample1: real,
    bufferSample2: real,
    feedbackSample: real
  )

  /** All fields zero: the initial operator. */
  const Silent: Operator := Operator(0.0, 0.0, 0.0, 0.0, 0.0, 0.0, 0.0)

  /** `setPitch`: frequency is the reference frequency times 2^pitch; the
      previous frequency is discarded. */
  function SetPitch(h: Host, op: Operator, pitch: real): (o: Operator)
    requires Valid(h)
    ensures o.freq > 0.0
    ensures o == op.(freq := o.freq)
  {
    op.(freq := h.freqC4 * Pow2(h, pitch))
  }

  /** `applyRatio`: scales the frequency by a ratio. */
  function ApplyRatio(op: Operator, ratio: real): (o: Operator)
    ensures o == op.(freq := o.freq)
    ensures op.freq > 0.0 && ratio > 0.0 ==> o.freq > 0.0
  {
    op.(freq := op.freq * ratio)
  }

  /** `FREQ_C4 * 2^pitch * ratio`: the frequency an operator is tuned to. */
  function Frequency(h: Host, pitch: real, ratio: real): real {
    h.freqC4 * Pow2(h, pitch) * ratio
  }

  /** Setting the pitch and then the ratio gives `FREQ_C4 * 2^pitch * ratio`
      whatever frequency the operator had before: nothing accumulates
      across ticks. */
  lemma TuningForgetsPreviousFrequency(h: Host, op1: Operator, op2: Operator, pitch: real, ratio: real)
    requires Valid(h)
    ensures ApplyRatio(SetPitch(h, op1, pitch), ratio).freq == Frequency(h, pitch, ratio)
    ensures ApplyRatio(SetPitch(h, op1, pitch), ratio).freq
         == ApplyRatio(SetPitch(h, op2, pitch), ratio).freq
  {
  }

  /** The single wrap of the phase accumulator: subtract 1 at or above 0.5,
      add 1 at or below -0.5. */
  function WrapPhase(p: real): (q: real)
    ensures q == p - 1.0 || q == p || q == p + 1.0
    ensures -1.5 < p < 1.5 ==> -0.5 <= q <= 0.5
    ensures -0.5 < p < 0.5 ==> q == p
  {
    if p >= 0.5 then p - 1.0 else if p <= -0.5 then p + 1.0 else p
  }

  /** Both ends of [-0.5, 0.5] are reached: -0.5 wraps to 0.5 and 0.5 wraps
      to -0.5, so the wrapped phase lives in a closed interval. */
  lemma WrapReachesBothEnds()
    ensures WrapPhase(-0.5) == 0.5
    ensures WrapPhase(0.5) == -0.5
  {
  }

  /** The phase increment of one step. */
  function Increment(op: Operator, time: real, fmMod: real): real {
    op.freq * time + fmMod * 0.5
  }

  /** Wavetable read position before wrapping: the phase offset by the
      feedback amount times the feedback sample. */
  function ReadPosition(phase: real, feedback: real, feedbackSample: real): real {
    phase + feedback * feedbackSample
  }

  /** The output is the raw wave sample times `amplitude`. */
  predicate ScaledBy(op: Operator, amplitude: real) {
    op.out == op.wave * amplitude
  }

  /** `process(time, amplitude, fmMod, feedback, table)`. */
  function Process(h: Host, op: Operator, time: real, amplitude: real, fmMod: real,
                   feedback: real, table: int): (o: Operator)
    requires Valid(h)
    requires 0 <= table < h.waveCount
    // the new phase is the advanced phase, shifted by at most one period
    ensures var p := op.phase + Increment(op, time, fmMod);
      o.phase == p - 1.0 || o.phase == p || o.phase == p + 1.0
    // a phase in [-0.5, 0.5] advanced by less than a period stays there
    ensures -0.5 <= op.phase <= 0.5 && -1.0 < Increment(op, time, fmMod) < 1.0 ==>
      -0.5 <= o.phase <= 0.5
    ensures o.freq == op.freq
    // the output is the raw sample scaled by the amplitude
    ensures ScaledBy(o, amplitude)
    // both history slots and the feedback sample hold this step's raw sample
    ensures o.bufferSample1 == o.wave && o.bufferSample2 == o.wave
    ensures o.feedbackSample == o.wave
    // the read position is the wrapped phase offset by feedback times the
    // previous step's feedback sample
    ensures o.wave == ReadWave(h, table, EucMod1(h, ReadPosition(o.phase, feedback, op.feedbackSample)))
  {
    var phase := WrapPhase(op.phase + Increment(op, time, fmMod));
    var position := EucMod1(h, ReadPosition(phase, feedback, op.feedbackSample));
    var wave := ReadWave(h, table, position);
    var buffer1 := wave;
    var buffer2 := buffer1;
    op.(phase := phase, wave := wave, out := wave * amplitude,
        bufferSample1 := buffer1, bufferSample2 := buffer2,
        feedbackSample := (buffer1 + buffer2) / 2.0)
  }

  /** With amplitude 0 the operator is silent whatever it reads. */
  lemma ZeroAmplitudeIsSilent(h: Host, op: Operator, time: real, fmMod: real,
                              feedback: real, table: int)
    requires Valid(h) && 0 <= table < h.waveCount
    ensures Process(h, op, time, 0.0, fmMod, feedback, table).out == 0.0
  {
  }

  /** Feedback reaches one step back only: on the second of two steps the
      read position is offset by `feedback` times the first step's raw
      sample, not by an average of older samples. */
  lemma FeedbackUsesPreviousWave(h: Host, op: Operator, time: real, amplitude: real,
                                 fmMod: real, feedback: real, table: int,
                                 time2: real, amplitude2: real, fmMod2: real)
    requires Valid(h) && 0 <= table < h.waveCount
    ensures var first := Process(h, op, time, amplitude, fmMod, feedback, table);
      var second := Process(h, first, time2, amplitude2, fmMod2, feedback, table);
      second.wave == ReadWave(h, table, EucMod1(h, ReadPosition(second.phase, feedback, first.wave)))
  {
    var first := Process(h, op, time, amplitude, fmMod, feedback, table);
    var second := Process(h, first, time2, amplitude2, fmMod2, feedback, table);
    assert first.feedbackSample == first.wave;
  }

  /** The phase stays in [-0.5, 0.5] over any number of steps whose
      increments are all smaller than one period. */
  lemma {:induction false} PhaseStaysWrapped(h: Host, op: Operator, times: seq<real>,
                                             fms: seq<real>, amplitude: real, table: int)
    requires Valid(h) && 0 <= table < h.waveCount
    requires |times| == |fms|
    requires -0.5 <= op.phase <= 0.5
    requires forall k | 0 <= k < |times| :: -1.0 < op.freq * times[k] + fms[k] * 0.5 < 1.0
    ensures -0.5 <= Steps(h, op, times, fms, amplitude, table).phase <= 0.5
    ensures Steps(h, op, times, fms, amplitude, table).freq == op.freq
    decreases |times|
  {
    if |times| > 0 {
      var next := Process(h, op, times[0], amplitude, fms[0], 0.0, table);
      PhaseStaysWrapped(h, next, times[1..], fms[1..], amplitude, table);
    }
  }

  /** Successive feedback-free steps of one operator at a fixed frequency. */
  function Steps(h: Host, op: Operator, times: seq<real>, fms: seq<real>,
                 amplitude: real, table: int): Operator
    requires Valid(h) && 0 <= table < h.waveCount
    requires |times| == |fms|
    decreases |times|
  {
    if |times| == 0 then op
    else Steps(h, Process(h, op, times[0], amplitude, fms[0], 0.0, table),
               times[1..], fms[1..], amplitude, table)
  }
}

=== FILE: rackmath.dfy ===
/** Scalar helpers the engine borrows from the host framework's math header
    (`sgn`, `crossfade`, `clamp`) and the float-to-int cast of the C++
    source. */
module RackMath {

  function Abs(x: real): real {
    if x < 0.0 then -x else x
  }

  /** `sgn`: 1 for positive, -1 for negative, 0 for zero. */
  function Sgn(x: real): (s: real)
    ensures s == 1.0 || s == 0.0 || s == -1.0
    ensures s * x == Abs(x)
    ensures s == 0.0 <==> x == 0.0
  {
    if x > 0.0 then 1.0 else if x < 0.0 then -1.0 else 0.0
  }

  /** `crossfade(a, b, p)`: moves from `a` (at p = 0) to `b` (at p = 1). */
  function Crossfade(a: real, b: real, p: real): real {
    a + (b - a) * p
  }

  /** With a weight in [0, 1] the crossfade lies between its two ends. */
  lemma CrossfadeBetween(a: real, b: real, p: real)
    ensures 0.0 <= p <= 1.0 && a <= b ==> a <= Crossfade(a, b, p) <= b
    ensures 0.0 <= p <= 1.0 && b <= a ==> b <= Crossfade(a, b, p) <= a
    ensures p == 0.0 ==> Crossfade(a, b, p) == a
    ensures p == 1.0 ==> Crossfade(a, b, p) == b
  {
    NonNegativeProduct(b - a, 1.0 - p);
    NonNegativeProduct(a - b, 1.0 - p);
    NonNegativeProduct(b - a, p);
    NonNegativeProduct(a - b, p);
  }

  lemma NonNegativeProduct(x: real, y: real)
    ensures x >= 0.0 && y >= 0.0 ==> x * y >= 0.0
  {
  }

  /** A crossfade of two positive rates with a weight below 1 stays positive;
      the same holds for two negative rates. */
  lemma CrossfadeKeepsSign(a: real, b: real, p: real)
    requires 0.0 <= p < 1.0
    ensures a > 0.0 && b > 0.0 ==> Crossfade(a, b, p) > 0.0
    ensures a < 0.0 && b < 0.0 ==> Crossfade(a, b, p) < 0.0
  {
    assert Crossfade(a, b, p) == a * (1.0 - p) + b * p;
    if a > 0.0 && b > 0.0 {
      assert a * (1.0 - p) > 0.0;
      assert b * p >= 0.0;
    }
    if a < 0.0 && b < 0.0 {
      assert a * (1.0 - p) < 0.0;
      assert b * p <= 0.0;
    }
  }

  function Min(x: real, y: real): real { if x < y then x else y }
  function Max(x: real, y: real): real { if x > y then x else y }

  /** `clamp(x, lo, hi)` for floats, written as the framework writes it:
      the upper bound first, then the lower bound. */
  function Clamp(x: real, lo: real, hi: real): (r: real)
    ensures lo <= hi ==> lo <= r <= hi
    ensures lo <= x <= hi ==> r == x
    ensures lo <= hi && x <= lo ==> r == lo
    ensures lo <= hi && x >= hi ==> r == hi
  {
    Max(Min(x, hi), lo)
  }

  /** `clamp(x, lo, hi)` for integers. */
  function ClampInt(x: int, lo: int, hi: int): (r: int)
    ensures lo <= hi ==> lo <= r <= hi
    ensures lo <= x <= hi ==> r == x
    ensures lo <= hi && x <= lo ==> r == lo
    ensures lo <= hi && x >= hi ==> r == hi
  {
    var m := if x < hi then x else hi;
    if m > lo then m else lo
  }

  /** The C++ cast `(int)x`: truncation toward zero. */
  function Truncate(x: real): (n: int)
    ensures x >= 0.0 ==> n as real <= x < n as real + 1.0
    ensures x < 0.0 ==> n as real - 1.0 < x <= n as real
  {
    if x >= 0.0 then x.Floor else -((-x).Floor)
  }
}

=== FILE: ramps.dfy ===
/** The attack/decay envelope generator (`Ramp`). Its state is the output
    level and the gate; the target is 1 while the gate is set and 0
    otherwise. One step moves the output toward the target at a rate chosen
    by `ShapeDelta`, snaps it onto the target once it is within 1e-3, clears
    the gate at the end of a rise and, in cycle mode, sets it again at the
    end of a fall. */
module Ramps {
  import opened RackMath
  import opened Host

  datatype Ramp = Ramp(out: real, gate: bool)

  /** A ramp at rest: output 0, gate clear (the initial state). */
  const Idle: Ramp := Ramp(0.0, false)

  /** Shortest time constant, in seconds. */
  const MinTime: real := 0.001

  /** Distance from the target at which the output snaps onto it. */
  const SnapDistance: real := 0.001

  /** The level the ramp heads for: 1 while gated, 0 otherwise. */
  function Target(r: Ramp): real {
    if r.gate then 1.0 else 0.0
  }

  /** `y` lies on the closed segment from `x` to `t`. */
  predicate Between(x: real, y: real, t: real) {
    (x <= t ==> x <= y <= t) && (t <= x ==> t <= y <= x)
  }

  /** Rate of change for a remaining distance `delta` and time constant
      `tau`: the linear rate crossfaded toward the logarithmic rate for
      negative `shape` and toward the exponential rate for positive `shape`. */
  function ShapeDelta(h: Host, delta: real, tau: real, shape: real): (rate: real)
    requires tau > 0.0
    ensures shape == 0.0 ==> rate == Sgn(delta) * 10.0 / tau
    ensures h.e > 0.0 && -1.0 <= shape <= 1.0 ==> Sgn(rate) == Sgn(delta)
  {
    RatesFollowDelta(h, delta, tau);
    var lin := Sgn(delta) * 10.0 / tau;
    if shape < 0.0 then
      var log := Sgn(delta) * 40.0 / tau / (Abs(delta) + 1.0);
      ShapeKeepsSign(lin, log, -shape * 0.95, delta);
      Crossfade(lin, log, -shape * 0.95)
    else
      var exp := h.e * delta / tau;
      ShapeKeepsSign(lin, exp, shape * 0.90, delta);
      Crossfade(lin, exp, shape * 0.90)
  }

  /** The linear, logarithmic and (for a positive `e`) exponential rates
      all carry the sign of the remaining distance. */
  lemma RatesFollowDelta(h: Host, delta: real, tau: real)
    requires tau > 0.0
    ensures Sgn(Sgn(delta) * 10.0 / tau) == Sgn(delta)
    ensures Sgn(Sgn(delta) * 40.0 / tau / (Abs(delta) + 1.0)) == Sgn(delta)
    ensures h.e > 0.0 ==> Sgn(h.e * delta / tau) == Sgn(delta)
  {
    var k := Abs(delta) + 1.0;
    if delta > 0.0 {
      assert 10.0 / tau > 0.0 && 40.0 / tau / k > 0.0;
      if h.e > 0.0 {
        assert h.e * delta > 0.0;
      }
    } else if delta < 0.0 {
      assert -1.0 * 10.0 / tau < 0.0 && -1.0 * 40.0 / tau / k < 0.0;
      if h.e > 0.0 {
        assert h.e * delta < 0.0;
      }
    }
  }

  /** Both candidate rates carry the sign of `delta`, so a crossfade with a
      weight below 1 does as well. */
  lemma ShapeKeepsSign(a: real, b: real, p: real, delta: real)
    ensures 0.0 <= p < 1.0 && Sgn(a) == Sgn(delta) && Sgn(b) == Sgn(delta) ==>
      Sgn(Crossfade(a, b, p)) == Sgn(delta)
  {
    if 0.0 <= p < 1.0 && Sgn(a) == Sgn(delta) && Sgn(b) == Sgn(delta) {
      CrossfadeKeepsSign(a, b, p);
      if delta == 0.0 {
        assert a == 0.0 && b == 0.0;
        assert Crossfade(a, b, p) == 0.0;
      }
    }
  }

  /** Time constant of a rise: `minTime * 2^(20 * riseRate)`, unclamped. */
  function RiseTime(h: Host, riseRate: real): (tau: real)
    requires Valid(h)
    ensures tau > 0.0
    ensures riseRate == 0.0 ==> tau == MinTime
  {
    MinTime * Pow2(h, riseRate * 20.0)
  }

  /** Time constant of a fall: the rate is clamped to [0, 1] first, so the
      time constant lies in [minTime, minTime * 2^20] whatever the rate. */
  function FallTime(h: Host, fallRate: real): (tau: real)
    requires Valid(h)
    ensures MinTime <= tau <= MinTime * TwoPow20
    ensures fallRate <= 0.0 ==> tau == MinTime
    ensures fallRate >= 1.0 ==> tau == MinTime * TwoPow20
  {
    var c := Clamp(fallRate, 0.0, 1.0);
    assert Pow2(h, 0.0) <= Pow2(h, c * 20.0) <= Pow2(h, 20.0);
    MinTime * Pow2(h, c * 20.0)
  }

  /** One step of `process(shape, riseRate, fallRate, time, cycle)`. */
  function Step(h: Host, r: Ramp, shape: real, riseRate: real, fallRate: real,
                time: real, cycle: bool): (r': Ramp)
    requires Valid(h)
    // after the step the output is on the target or more than 1e-3 away
    ensures r'.out == Target(r) || Abs(Target(r) - r'.out) > SnapDistance
    // already on the target: the gate clears and the output stays
    ensures r.out == Target(r) ==> r' == Ramp(Target(r), false)
    // a rise that reaches the target clears the gate; one that does not keeps it
    ensures r.out < Target(r) ==>
      r'.gate == (if r'.out == Target(r) then false else r.gate)
    // a fall that reaches the target re-arms the gate in cycle mode only
    ensures r.out > Target(r) ==>
      r'.gate == (if r'.out == Target(r) then r.gate || cycle else r.gate)
    // the output moves toward the target and never past it
    ensures time >= 0.0 && -1.0 <= shape <= 1.0 ==> Between(r.out, r'.out, Target(r))
    // with time passing, an output off the target gets strictly closer
    ensures time > 0.0 && -1.0 <= shape <= 1.0 && r.out != Target(r) ==>
      Abs(Target(r) - r'.out) < Abs(Target(r) - r.out)
  {
    var target := Target(r);
    var delta := target - r.out;
    if delta > 0.0 then
      var out := r.out + ShapeDelta(h, delta, RiseTime(h, riseRate), shape) * time;
      var rising := target - out > SnapDistance;
      if rising then Ramp(out, r.gate) else Ramp(target, false)
    else if delta < 0.0 then
      var out := r.out + ShapeDelta(h, delta, FallTime(h, fallRate), shape) * time;
      var falling := target - out < -SnapDistance;
      if falling then Ramp(out, r.gate) else Ramp(target, r.gate || cycle)
    else
      Ramp(target, false)
  }

  /** The output stays in [0, 1] for in-range shapes and non-negative time. */
  lemma StepKeepsUnitRange(h: Host, r: Ramp, shape: real, riseRate: real, fallRate: real,
                           time: real, cycle: bool)
    requires Valid(h)
    requires 0.0 <= r.out <= 1.0 && time >= 0.0 && -1.0 <= shape <= 1.0
    ensures 0.0 <= Step(h, r, shape, riseRate, fallRate, time, cycle).out <= 1.0
  {
  }

  /** With the linear shape and rise rate 0, a gated ramp below 1 either
      reaches 1 or rises by exactly `10 * time / minTime`. */
  lemma LinearRiseStep(h: Host, r: Ramp, fallRate: real, time: real, cycle: bool)
    requires Valid(h)
    requires r.gate && r.out < 1.0 && time >= 0.0
    ensures var r' := Step(h, r, 0.0, 0.0, fallRate, time, cycle);
      r'.out == 1.0 || r'.out == r.out + 10.0 * time / MinTime
  {
    assert RiseTime(h, 0.0) == MinTime;
    assert ShapeDelta(h, 1.0 - r.out, MinTime, 0.0) * time == 10.0 * time / MinTime;
  }

  /** A ramp at rest stays at rest, even in cycle mode: cycling re-arms the
      gate only at the end of a fall. */
  lemma IdleIsFixedPoint(h: Host, shape: real, riseRate: real, fallRate: real,
                         time: real, cycle: bool)
    requires Valid(h)
    ensures Step(h, Idle, shape, riseRate, fallRate, time, cycle) == Idle
  {
  }

  /** `n` consecutive steps with the same arguments. */
  function Run(h: Host, r: Ramp, n: nat, shape: real, riseRate: real, fallRate: real,
               time: real, cycle: bool): Ramp
    requires Valid(h)
    decreases n
  {
    if n == 0 then r else Run(h, Step(h, r, shape, riseRate, fallRate, time, cycle), n - 1,
                              shape, riseRate, fallRate, time, cycle)
  }

  /** With the linear shape, a fall that does not finish lowers the output
      by exactly `10 * time / tau`. */
  lemma LinearFallStep(h: Host, r: Ramp, riseRate: real, fallRate: real, time: real)
    requires Valid(h)
    requires !r.gate && 0.0 < r.out && time >= 0.0
    ensures var r' := Step(h, r, 0.0, riseRate, fallRate, time, false);
      && !r'.gate
      && (r'.out == 0.0 || r'.out == r.out - 10.0 * time / FallTime(h, fallRate))
  {
    var tau := FallTime(h, fallRate);
    assert ShapeDelta(h, -r.out, tau, 0.0) * time == -(10.0 * time / tau);
  }

  /** Decay convergence: an ungated ramp in [0, 1] with the linear shape and
      cycling off reaches rest within `n` steps once `n` steps of
      `10 * time / tau` cover its output, and stays there. */
  lemma {:induction false} LinearFallSettles(h: Host, r: Ramp, n: nat, riseRate: real,
                                             fallRate: real, time: real)
    requires Valid(h)
    requires !r.gate && 0.0 <= r.out <= 1.0 && time > 0.0
    requires n as real * (10.0 * time / FallTime(h, fallRate)) >= r.out
    ensures Run(h, r, n, 0.0, riseRate, fallRate, time, false) == Idle
    decreases n
  {
    var k := 10.0 * time / FallTime(h, fallRate);
    var r' := Step(h, r, 0.0, riseRate, fallRate, time, false);
    if r.out == 0.0 {
      assert r == Idle;
      if n > 0 {
        IdleIsFixedPoint(h, 0.0, riseRate, fallRate, time, false);
        LinearFallSettles(h, r', n - 1, riseRate, fallRate, time);
      }
    } else {
      LinearFallStep(h, r, riseRate, fallRate, time);
      assert n > 0;
      assert (n - 1) as real * k == n as real * k - k;
      LinearFallSettles(h, r', n - 1, riseRate, fallRate, time);
    }
  }
}

=== FILE: tables.dfy ===
/** The engine's constant tables: the modulation matrix (6 algorithms,
    4 source operators, 5 destinations), the 32 ratio selections and the 64
    wavetable selections. The two selection tables are written as
    balanced concatenations of eight-row groups purely so that the verifier can range
    over them; the rows and their order are the source's. */
module Tables {

  const AlgorithmCount: int := 6
  const OperatorCount: int := 4
  /** Destination 4 of the modulation matrix is the output mix. */
  const MixColumn: int := 4
  const RatioSelections: int := 32
  const WaveSelections: int := 64
  /** Length of the FM frequency-ratio table the ratio selections index. */
  const RatioTableLength: int := 23
  /** Wavetables the wave selections index. */
  const WaveTableCount: int := 8

  /** modMatrix[algorithm][source][destination]: destinations 0..3 are the
      FM inputs of operators 0..3, destination 4 is the output mix. */
  const ModMatrix: seq<seq<seq<real>>> := [
        [[0.0, 1.0, 0.0, 0.0, 0.0], [0.0, 0.0, 0.0, 0.0, 1.0], [0.0, 0.0, 0.0, 0.0, 0.0], [0.0, 0.0, 0.0, 0.0, 0.0]],
    [[0.0, 0.0, 0.0, 0.0, 0.5], [0.0, 0.0, 0.0, 0.0, 0.5], [0.0, 0.0, 0.0, 0.0, 0.0], [0.0, 0.0, 0.0, 0.0, 0.0]],
    [[0.0, 1.0, 0.0, 0.0, 0.0], [0.0, 0.0, 1.0, 0.0, 0.0], [0.0, 0.0, 0.0, 1.0, 0.0], [0.0, 0.0, 0.0, 0.0, 1.0]],
    [[0.0, 1.0, 0.0, 0.0, 0.0], [0.0, 0.0, 0.0, 0.0, 0.5], [0.0, 0.0, 0.0, 1.0, 0.0], [0.0, 0.0, 0.0, 0.0, 0.5]],
    [[0.0, 0.0, 0.0, 0.0, 0.5], [0.0, 0.0, 1.0, 0.0, 0.0], [0.0, 0.0, 0.0, 1.0, 0.0], [0.0, 0.0, 0.0, 0.0, 0.5]],
    [[0.0, 0.0, 0.0, 0.0, 0.3], [0.0, 0.0, 1.0, 0.0, 0.0], [0.0, 0.0, 0.0, 0.0, 0.3], [0.0, 0.0, 0.0, 0.0, 0.3]]
  ]

  /** ratioMatrix[selection][operator]: index into the FM ratio table. */
  const RatioMatrix: seq<seq<int>> :=
        ([[5, 5, 5, 5], [3, 5, 7, 5], [0, 5, 8, 5], [7, 5, 2, 5], [9, 5, 10, 5], [14, 5, 15, 5], [14, 8, 9, 5], [14, 11, 8, 5]] +
     [[9, 8, 12, 5], [22, 14, 17, 4], [14, 14, 12, 4], [9, 11, 14, 7], [22, 9, 9, 13], [15, 8, 17, 13], [10, 12, 6, 15], [10, 12, 6, 16]]) +
    ([[17, 12, 6, 11], [5, 14, 8, 12], [5, 10, 13, 12], [5, 14, 14, 14], [4, 2, 5, 2], [0, 8, 16, 9], [3, 13, 14, 1], [4, 12, 14, 1]] +
     [[0, 10, 9, 0], [0, 14, 13, 13], [0, 10, 4, 16], [0, 3, 4, 18], [0, 1, 4, 13], [14, 0, 12, 22], [15, 0, 5, 22], [1, 14, 9, 4]])

  /** tableMatrix[selection][operator]: wavetable index. */
  const TableMatrix: seq<seq<int>> :=
        (([[0, 0, 0, 0], [0, 1, 0, 1], [0, 2, 0, 2], [0, 3, 0, 3], [0, 4, 0, 4], [0, 5, 0, 5], [0, 6, 0, 6], [0, 7, 0, 7]] +
      [[1, 0, 1, 0], [1, 1, 1, 1], [1, 2, 1, 2], [1, 3, 1, 3], [1, 4, 1, 4], [1, 5, 1, 5], [1, 6, 1, 6], [1, 7, 1, 7]]) +
     ([[2, 0, 2, 0], [2, 1, 2, 1], [2, 2, 2, 2], [2, 3, 2, 3], [2, 4, 2, 4], [2, 5, 2, 5], [2, 6, 2, 6], [2, 7, 2, 7]] +
      [[3, 0, 3, 0], [3, 1, 3, 1], [3, 2, 3, 2], [3, 3, 3, 3], [3, 4, 3, 4], [3, 5, 3, 5], [3, 6, 3, 6], [3, 7, 3, 7]])) +
    (([[4, 0, 4, 0], [4, 1, 4, 1], [4, 2, 4, 2], [4, 3, 4, 3], [4, 4, 4, 4], [4, 5, 4, 5], [4, 6, 4, 6], [4, 7, 4, 7]] +
      [[5, 0, 5, 0], [5, 1, 5, 1], [5, 2, 5, 2], [5, 3, 5, 3], [5, 4, 5, 4], [5, 5, 5, 5], [5, 6, 5, 6], [5, 7, 5, 7]]) +
     ([[6, 0, 6, 0], [6, 1, 6, 1], [6, 2, 6, 2], [6, 3, 6, 3], [6, 4, 6, 4], [6, 5, 6, 5], [6, 6, 6, 6], [6, 7, 6, 7]] +
      [[7, 0, 7, 0], [7, 1, 7, 1], [7, 2, 7, 2], [7, 3, 7, 3], [7, 4, 7, 4], [7, 5, 7, 5], [7, 6, 7, 6], [7, 7, 7, 7]]))

  /** Weight with which source operator j feeds destination d under
      algorithm a. */
  function Route(a: int, j: int, d: int): real
    requires 0 <= a < AlgorithmCount && 0 <= j < OperatorCount && 0 <= d <= MixColumn
  {
    ModMatrixShape();
    ModMatrix[a][j][d]
  }

  /** Sum of the mix column of one algorithm. */
  function MixWeight(a: int): real
    requires 0 <= a < AlgorithmCount
  {
    Route(a, 0, MixColumn) + Route(a, 1, MixColumn) + Route(a, 2, MixColumn) + Route(a, 3, MixColumn)
  }

  /** Every algorithm has four source rows of five destinations. */
  lemma ModMatrixShape()
    ensures |ModMatrix| == AlgorithmCount
    ensures forall a | 0 <= a < AlgorithmCount :: |ModMatrix[a]| == OperatorCount
    ensures forall a, j | 0 <= a < AlgorithmCount && 0 <= j < OperatorCount ::
      |ModMatrix[a][j]| == MixColumn + 1
  {
  }

  /** The FM part of every algorithm is strictly feed-forward: operator j
      can modulate operator i only when j < i, so no operator modulates
      itself or an earlier one. */
  lemma FmIsFeedForward()
    ensures forall a, j, i | 0 <= a < AlgorithmCount && 0 <= i <= j < OperatorCount ::
      ModMatrix[a][j][i] == 0.0
  {
    ModMatrixShape();
  }

  /** Every entry is a weight in [0, 1], and every algorithm sends something
      to the mix without exceeding unit total weight. */
  lemma ModMatrixWeights()
    ensures forall a, j, d | 0 <= a < AlgorithmCount && 0 <= j < OperatorCount && 0 <= d <= MixColumn ::
      0.0 <= ModMatrix[a][j][d] <= 1.0
    ensures forall a | 0 <= a < AlgorithmCount :: 0.0 < MixWeight(a) <= 1.0
  {
    ModMatrixShape();
  }

  /** The routing of one algorithm: four source rows of five destinations,
      FM strictly feed-forward, every weight in [0, 1] and the mix weights
      summing to more than 0 and at most 1. */
  lemma Algorithm(a: int)
    requires 0 <= a < AlgorithmCount
    ensures |ModMatrix| == AlgorithmCount && |ModMatrix[a]| == OperatorCount
    ensures forall j | 0 <= j < OperatorCount :: |ModMatrix[a][j]| == MixColumn + 1
    ensures forall j, i | 0 <= i <= j < OperatorCount :: ModMatrix[a][j][i] == 0.0
    ensures forall j, d | 0 <= j < OperatorCount && 0 <= d <= MixColumn ::
      0.0 <= ModMatrix[a][j][d] <= 1.0 && ModMatrix[a][j][d] == Route(a, j, d)
    ensures 0.0 < ModMatrix[a][0][MixColumn] + ModMatrix[a][1][MixColumn]
                  + ModMatrix[a][2][MixColumn] + ModMatrix[a][3][MixColumn] <= 1.0
  {
    ModMatrixShape();
    FmIsFeedForward();
    ModMatrixWeights();
  }

  predicate RowsWithin(m: seq<seq<int>>, from: int, to: int, lo: int, hi: int) {
    forall r, k | from <= r < to && 0 <= r < |m| && 0 <= k < |m[r]| :: lo <= m[r][k] <= hi
  }

  predicate RowsOfFour(m: seq<seq<int>>) {
    forall r | 0 <= r < |m| :: |m[r]| == OperatorCount
  }

  predicate WidthsFour(m: seq<seq<int>>, from: int, to: int) {
    forall r | from <= r < to && 0 <= r < |m| :: |m[r]| == OperatorCount
  }

  /** Ratio selections [from, from + 16) have four entries each, all below 23. */
  predicate RatioSliceFacts(from: int) {
    && WidthsFour(RatioMatrix, from, from + 16)
    && RowsWithin(RatioMatrix, from, from + 16, 0, RatioTableLength - 1)
  }

  lemma RatioSlice0() ensures |RatioMatrix| == RatioSelections && RatioSliceFacts(0) {}
  lemma RatioSlice1() ensures |RatioMatrix| == RatioSelections && RatioSliceFacts(16) {}

  /** Every ratio selection names four entries of the 23-entry ratio table. */
  lemma RatioSelectionsInRange()
    ensures |RatioMatrix| == RatioSelections && RowsOfFour(RatioMatrix)
    ensures forall r, k | 0 <= r < RatioSelections && 0 <= k < OperatorCount ::
      0 <= RatioMatrix[r][k] < RatioTableLength
  {
    RatioSlice0();
    RatioSlice1();
  }

  /** Ratio selection `sel` as a row: four entries of the ratio table. */
  lemma RatioSelection(sel: int)
    requires 0 <= sel < RatioSelections
    ensures |RatioMatrix| == RatioSelections && |RatioMatrix[sel]| == OperatorCount
    ensures forall k | 0 <= k < OperatorCount :: 0 <= RatioMatrix[sel][k] < RatioTableLength
  {
    RatioSelectionsInRange();
  }

  /** Wave selections [8g, 8g + 8) — the g-th group of the table — have four
      entries each, each naming one of the eight wavetables, with operators 0
      and 2 on table r / 8 and operators 1 and 3 on table r % 8. */
  predicate WaveGroupFacts(g: int)
  {
    && |TableMatrix| == WaveSelections
    && WidthsFour(TableMatrix, 8 * g, 8 * g + 8)
    && RowsWithin(TableMatrix, 8 * g, 8 * g + 8, 0, WaveTableCount - 1)
    && forall r | 8 * g <= r < 8 * g + 8 && 0 <= r < |TableMatrix| ::
         |TableMatrix[r]| == OperatorCount ==>
           && TableMatrix[r][0] == TableMatrix[r][2] == r / 8
           && TableMatrix[r][1] == TableMatrix[r][3] == r % 8
  }

  lemma WaveGroup0() ensures WaveGroupFacts(0) {}
  lemma WaveGroup1() ensures WaveGroupFacts(1) {}
  lemma WaveGroup2() ensures WaveGroupFacts(2) {}
  lemma WaveGroup3() ensures WaveGroupFacts(3) {}
  lemma WaveGroup4() ensures WaveGroupFacts(4) {}
  lemma WaveGroup5() ensures WaveGroupFacts(5) {}
  lemma WaveGroup6() ensures WaveGroupFacts(6) {}
  lemma WaveGroup7() ensures WaveGroupFacts(7) {}

  /** Every wave selection names four of the eight wavetables. */
  lemma WaveSelectionsInRange()
    ensures |TableMatrix| == WaveSelections && RowsOfFour(TableMatrix)
    ensures forall r, k | 0 <= r < WaveSelections && 0 <= k < OperatorCount ::
      0 <= TableMatrix[r][k] < WaveTableCount
  {
    WaveGroup0();
    WaveGroup1();
    WaveGroup2();
    WaveGroup3();
    WaveGroup4();
    WaveGroup5();
    WaveGroup6();
    WaveGroup7();
  }

  /** The wave selections enumerate every pair of wavetables once, in order:
      selection r gives operators 0 and 2 table r / 8 and operators 1 and 3
      table r % 8. */
  lemma WaveSelectionsArePairs()
    ensures |TableMatrix| == WaveSelections && RowsOfFour(TableMatrix)
    ensures forall r | 0 <= r < WaveSelections ::
      && TableMatrix[r][0] == TableMatrix[r][2] == r / 8
      && TableMatrix[r][1] == TableMatrix[r][3] == r % 8
  {
    WaveGroup0();
    WaveGroup1();
    WaveGroup2();
    WaveGroup3();
    WaveGroup4();
    WaveGroup5();
    WaveGroup6();
    WaveGroup7();
  }

  /** Wave selection `sel` as a row: tables `sel / 8, sel % 8, sel / 8, sel % 8`. */
  lemma WaveSelection(sel: int)
    requires 0 <= sel < WaveSelections
    ensures |TableMatrix| == WaveSelections
    ensures TableMatrix[sel] == [sel / 8, sel % 8, sel / 8, sel % 8]
    ensures 0 <= sel / 8 < WaveTableCount && 0 <= sel % 8 < WaveTableCount
  {
    WaveSelectionsArePairs();
    var row := TableMatrix[sel];
    assert |row| == OperatorCount;
    assert row[0] == sel / 8 && row[1] == sel % 8 && row[2] == sel / 8 && row[3] == sel % 8;
  }
}

=== FILE: voice.dfy ===
/** One tick of the voice (`PSIOP::process`): latch and clamp the controls on
    a trigger edge, pick the accent preset, strike or choke the three ramps,
    advance the two amplitude ramps and (above the glide threshold) the
    pitch ramp, then update operators 0..3 in place — each one's FM input
    read through the modulation matrix from the operator outputs as they
    stand at that moment — and mix their outputs into one sample. The edge
    detectors are taken as per-tick booleans. */
module Voice {
  import opened RackMath
  import opened Host
  import opened Tables
  import opened Ramps
  import opened Operators

  /** Values latched on a trigger and held until the next one. */
  datatype Params = Params(
    startPitch: real,
    endPitch: real,
    finePitch: real,
    rates: seq<real>,   // amplitude ramp 0, amplitude ramp 1, pitch ramp
    algo: int,
    ratioIndex: int,
    feedback: real,
    table: int,
    index: real,        // global modulation index
    level: real         // output level
  )

  /** Controls read during one tick. The three edges are what the edge
      detectors report this tick. The `...Offset` values are the already
      rounded CV offsets of the selection inputs: voltage times attenuator
      for ratio and wave, the bare voltage for the algorithm. */
  datatype Controls = Controls(
    startKnob: real, startCv: real, fineKnob: real,
    endKnob: real, endCv: real,
    ratioKnob: real, ratioOffset: int,
    waveKnob: real, waveOffset: int,
    algoKnob: real, algoOffset: int,
    feedbackKnob: real, feedbackCv: real,
    rateKnobs: seq<real>, rateCvs: seq<real>, rate2Atten: real,
    trigger: bool, accent: bool, choke: bool,
    sampleTime: real
  )

  datatype Voice = Voice(ops: seq<Operator>, ramps: seq<Ramp>, params: Params)

  /** What one tick produces: the next state, the output sample and the
      four per-operator debug taps. */
  datatype Output = Output(voice: Voice, sample: real, taps: seq<real>)

  const PitchLimit: real := 4.0
  const LastAlgorithm: int := 5
  const LastRatioSelection: int := 31
  const LastWaveSelection: int := 63
  const NormalIndex: real := 0.6
  const NormalLevel: real := 1.0
  const AccentIndex: real := 1.0
  const AccentLevel: real := 1.8
  /** Pitch-ramp rates at or below this hold the pitch at the start pitch. */
  const GlideThreshold: real := 0.2
  const GlideShape: real := 0.3
  const OutputGain: real := 4.0
  const CvScale: real := 0.2

  const InitialParams: Params :=
    Params(0.0, 0.0, 0.0, [0.0, 0.0, 0.0], 0, 0, 0.0, 0, NormalIndex, NormalLevel)

  const Initial: Voice :=
    Voice([Silent, Silent, Silent, Silent], [Idle, Idle, Idle], InitialParams)

  predicate ControlsShaped(c: Controls) {
    |c.rateKnobs| == 3 && |c.rateCvs| == 3
  }

  /** Every latched value inside the range its clamp allows, and one of the
      two presets for index and level. */
  predicate ParamsInRange(p: Params) {
    && -PitchLimit <= p.startPitch <= PitchLimit
    && -PitchLimit <= p.endPitch <= PitchLimit
    && |p.rates| == 3
    && (forall k | 0 <= k < 3 :: 0.0 <= p.rates[k] <= 1.0)
    && 0 <= p.algo <= LastAlgorithm
    && 0 <= p.ratioIndex <= LastRatioSelection
    && 0 <= p.table <= LastWaveSelection
    && 0.0 <= p.feedback <= 1.0
    && ((p.index == NormalIndex && p.level == NormalLevel)
        || (p.index == AccentIndex && p.level == AccentLevel))
  }

  /** Four operators, three ramps, latched values in range. */
  predicate WellFormed(v: Voice) {
    |v.ops| == 4 && |v.ramps| == 3 && ParamsInRange(v.params)
  }

  /** The state invariant: well formed, every ramp output in [0, 1]. */
  predicate Invariant(v: Voice) {
    WellFormed(v) && forall k | 0 <= k < |v.ramps| :: 0.0 <= v.ramps[k].out <= 1.0
  }

  lemma InitialIsValid()
    ensures Invariant(Initial)
  {
  }

  // ---------------------------------------------------------------- latching

  /** Knob plus 0.2 times the CV of rate `i`; the CV of rate 1 (the second
      amplitude ramp) is scaled by its attenuator first. */
  function RateSum(c: Controls, i: int): real
    requires ControlsShaped(c) && 0 <= i < 3
  {
    var cv := if i == 1 then CvScale * c.rate2Atten * c.rateCvs[1] else CvScale * c.rateCvs[i];
    c.rateKnobs[i] + cv
  }

  /** Rate `i` on a trigger: its sum clamped to [0, 1]. */
  function LatchRate(c: Controls, i: int): (rate: real)
    requires ControlsShaped(c) && 0 <= i < 3
    ensures 0.0 <= rate <= 1.0
    ensures 0.0 <= RateSum(c, i) <= 1.0 ==> rate == RateSum(c, i)
    ensures RateSum(c, i) <= 0.0 ==> rate == 0.0
    ensures RateSum(c, i) >= 1.0 ==> rate == 1.0
  {
    Clamp(RateSum(c, i), 0.0, 1.0)
  }

  /** The values a trigger latches: knob plus CV for each control, then the
      clamp of that control; index and level from the accent edge. */
  function Latch(c: Controls): (p: Params)
    requires ControlsShaped(c)
    ensures ParamsInRange(p)
    ensures c.accent ==> p.index == AccentIndex && p.level == AccentLevel
    ensures !c.accent ==> p.index == NormalIndex && p.level == NormalLevel
    // each latched value is its knob-plus-CV sum clamped to its range
    ensures p.startPitch == Clamp(c.startKnob + c.startCv + c.fineKnob, -PitchLimit, PitchLimit)
    ensures p.endPitch == Clamp(c.endKnob + c.endCv, -PitchLimit, PitchLimit)
    ensures p.finePitch == c.fineKnob
    ensures p.ratioIndex == ClampInt(Truncate(c.ratioKnob) + c.ratioOffset, 0, LastRatioSelection)
    ensures p.table == ClampInt(Truncate(c.waveKnob) + c.waveOffset, 0, LastWaveSelection)
    ensures p.algo == ClampInt(Truncate(c.algoKnob) + c.algoOffset, 0, LastAlgorithm)
    ensures p.feedback == Clamp(c.feedbackKnob + CvScale * c.feedbackCv, 0.0, 1.0)
    ensures |p.rates| == 3 && forall i | 0 <= i < 3 :: p.rates[i] == LatchRate(c, i)
    // out-of-range selections stick to the nearest end, never wrap
    ensures Truncate(c.ratioKnob) + c.ratioOffset >= LastRatioSelection ==> p.ratioIndex == LastRatioSelection
    ensures Truncate(c.ratioKnob) + c.ratioOffset <= 0 ==> p.ratioIndex == 0
    ensures Truncate(c.waveKnob) + c.waveOffset >= LastWaveSelection ==> p.table == LastWaveSelection
    ensures Truncate(c.waveKnob) + c.waveOffset <= 0 ==> p.table == 0
    ensures Truncate(c.algoKnob) + c.algoOffset >= LastAlgorithm ==> p.algo == LastAlgorithm
    ensures Truncate(c.algoKnob) + c.algoOffset <= 0 ==> p.algo == 0
  {
    var index := if c.accent then AccentIndex else NormalIndex;
    var level := if c.accent then AccentLevel else NormalLevel;
    var startPitch := Clamp(c.startKnob + c.startCv + c.fineKnob, -PitchLimit, PitchLimit);
    var endPitch := Clamp(c.endKnob + c.endCv, -PitchLimit, PitchLimit);
    var ratioIndex := ClampInt(Truncate(c.ratioKnob) + c.ratioOffset, 0, LastRatioSelection);
    var table := ClampInt(Truncate(c.waveKnob) + c.waveOffset, 0, LastWaveSelection);
    var algo := ClampInt(Truncate(c.algoKnob) + c.algoOffset, 0, LastAlgorithm);
    var feedback := Clamp(c.feedbackKnob + CvScale * c.feedbackCv, 0.0, 1.0);
    var rates := [LatchRate(c, 0), LatchRate(c, 1), LatchRate(c, 2)];
    Params(startPitch, endPitch, c.fineKnob, rates, algo, ratioIndex, feedback, table, index, level)
  }

  // ------------------------------------------------------------------ ramps

  /** A trigger sets the gate of every ramp and leaves its output. */
  function Strike(ramps: seq<Ramp>): (rs: seq<Ramp>)
    requires |ramps| == 3
    ensures |rs| == 3
    ensures forall k | 0 <= k < 3 :: rs[k].gate && rs[k].out == ramps[k].out
  {
    [ramps[0].(gate := true), ramps[1].(gate := true), ramps[2].(gate := true)]
  }

  /** A choke clears the gate and zeroes the output of every ramp. */
  function Choke(ramps: seq<Ramp>): (rs: seq<Ramp>)
    requires |ramps| == 3
    ensures rs == [Idle, Idle, Idle]
  {
    [ramps[0].(gate := false, out := 0.0), ramps[1].(gate := false, out := 0.0),
     ramps[2].(gate := false, out := 0.0)]
  }

  /** The ramps after the trigger and choke edges, before they advance; the
      choke is handled second, so it wins over a simultaneous trigger. */
  function EdgeRamps(ramps: seq<Ramp>, c: Controls): (rs: seq<Ramp>)
    requires |ramps| == 3
    ensures |rs| == 3
    ensures c.choke ==> rs == [Idle, Idle, Idle]
    ensures !c.choke && c.trigger ==> rs == Strike(ramps)
    ensures !c.choke && !c.trigger ==> rs == ramps
  {
    var struck := if c.trigger then Strike(ramps) else ramps;
    if c.choke then Choke(struck) else struck
  }

  /** Whether the pitch ramp runs this tick. */
  predicate Gliding(p: Params)
    requires |p.rates| == 3
  {
    p.rates[2] > GlideThreshold
  }

  /** Amplitude ramps advance with shape 0, rise rate 0 and no cycling; the
      pitch ramp advances only while gliding, with shape 0.3, fall rate
      `1 - rate` and cycling on. */
  function AdvanceRamps(h: Host, rs: seq<Ramp>, p: Params, time: real): (rs': seq<Ramp>)
    requires Valid(h) && |rs| == 3 && |p.rates| == 3
    ensures |rs'| == 3
  {
    [Step(h, rs[0], 0.0, 0.0, p.rates[0], time, false),
     Step(h, rs[1], 0.0, 0.0, p.rates[1], time, false),
     if Gliding(p) then Step(h, rs[2], GlideShape, 0.0, 1.0 - p.rates[2], time, true) else rs[2]]
  }

  /** Advancing ramps whose outputs lie in [0, 1] keeps them there. */
  lemma AdvanceKeepsUnitRange(h: Host, rs: seq<Ramp>, p: Params, time: real)
    requires Valid(h) && |rs| == 3 && |p.rates| == 3 && time >= 0.0
    requires forall k | 0 <= k < 3 :: 0.0 <= rs[k].out <= 1.0
    ensures forall k | 0 <= k < 3 :: 0.0 <= AdvanceRamps(h, rs, p, time)[k].out <= 1.0
  {
    StepKeepsUnitRange(h, rs[0], 0.0, 0.0, p.rates[0], time, false);
    StepKeepsUnitRange(h, rs[1], 0.0, 0.0, p.rates[1], time, false);
    StepKeepsUnitRange(h, rs[2], GlideShape, 0.0, 1.0 - p.rates[2], time, true);
  }

  /** Pitch of this tick: the start pitch, or while gliding
      `crossfade(endPitch, startPitch, out)` of the pitch ramp — the start
      pitch while the ramp is at 1, the end pitch once it has fallen to 0. */
  function Pitch(p: Params, rs: seq<Ramp>): (pitch: real)
    requires |p.rates| == 3 && |rs| == 3
    ensures !Gliding(p) ==> pitch == p.startPitch
    ensures Gliding(p) && rs[2].out == 1.0 ==> pitch == p.startPitch
    ensures Gliding(p) && rs[2].out == 0.0 ==> pitch == p.endPitch
    ensures Gliding(p) && 0.0 <= rs[2].out <= 1.0 ==>
      Min(p.endPitch, p.startPitch) <= pitch <= Max(p.endPitch, p.startPitch)
  {
    if !Gliding(p) then p.startPitch
    else
      CrossfadeBetween(p.endPitch, p.startPitch, rs[2].out);
      Crossfade(p.endPitch, p.startPitch, rs[2].out)
  }

  // -------------------------------------------------------------- operators

  /** Everything the operator loop of one tick reads besides the operators
      themselves: the pitch and the two amplitudes from the ramps, and the
      values the latched selections pick out of the constant tables. None
      of them changes inside the loop, so they are gathered once. */
  datatype Drive = Drive(
    pitch: real,
    time: real,
    amp0: real,               // amplitude ramp 0: operators 0 and 2
    amp1: real,               // amplitude ramp 1: operators 1 and 3
    index: real,              // global modulation index
    feedback: real,           // feedback amount of operator 0
    routes: seq<seq<real>>,   // modMatrix[algo]: source row, destination column
    ratios: seq<real>,        // frequency ratio of each operator
    tables: seq<int>          // wavetable of each operator
  )

  /** Shape of a drive, FM routing strictly feed-forward, mix weights in
      [0, 1] summing to at most 1, positive ratios, tables in the bank. */
  predicate DriveOk(h: Host, d: Drive) {
    && |d.routes| == 4
    && (forall j | 0 <= j < 4 :: |d.routes[j]| == MixColumn + 1)
    && (forall j, i | 0 <= i <= j < 4 :: d.routes[j][i] == 0.0)
    && (forall j | 0 <= j < 4 :: 0.0 <= d.routes[j][MixColumn] <= 1.0)
    && d.routes[0][MixColumn] + d.routes[1][MixColumn]
       + d.routes[2][MixColumn] + d.routes[3][MixColumn] <= 1.0
    && |d.ratios| == 4 && (forall i | 0 <= i < 4 :: d.ratios[i] > 0.0)
    && |d.tables| == 4 && (forall i | 0 <= i < 4 :: 0 <= d.tables[i] < h.waveCount)
  }

  /** Operators 0 and 2 follow amplitude ramp 0, operators 1 and 3 ramp 1. */
  function Amplitude(d: Drive, i: int): real
    requires 0 <= i < 4
  {
    [d.amp0, d.amp1, d.amp0, d.amp1][i]
  }

  /** Only operator 0 gets the feedback amount. */
  function FeedbackFor(d: Drive, i: int): real {
    if i == 0 then d.feedback else 0.0
  }

  /** Contribution of operator j to the FM input of operator i. */
  function FmTerm(h: Host, ops: seq<Operator>, d: Drive, j: int, i: int): real
    requires DriveOk(h, d) && |ops| == 4 && 0 <= j < 4 && 0 <= i < 4
  {
    ops[j].out * d.index * d.routes[j][i]
  }

  /** FM input of operator i: the sum over j = 0..3 of
      `out[j] * index * modMatrix[algo][j][i]`. */
  function FmInput(h: Host, ops: seq<Operator>, d: Drive, i: int): real
    requires DriveOk(h, d) && |ops| == 4 && 0 <= i < 4
  {
    FmTerm(h, ops, d, 0, i) + FmTerm(h, ops, d, 1, i) + FmTerm(h, ops, d, 2, i) + FmTerm(h, ops, d, 3, i)
  }

  /** Operator i retuned for this tick. */
  function Tuned(h: Host, op: Operator, d: Drive, i: int): Operator
    requires Valid(h) && DriveOk(h, d) && 0 <= i < 4
  {
    ApplyRatio(SetPitch(h, op, d.pitch), d.ratios[i])
  }

  /** Update of operator i given the operators as they stand. */
  function OperatorTick(h: Host, ops: seq<Operator>, i: int, d: Drive): Operator
    requires Valid(h) && DriveOk(h, d) && |ops| == 4 && 0 <= i < 4
  {
    Process(h, Tuned(h, ops[i], d, i), d.time, Amplitude(d, i), FmInput(h, ops, d, i),
            FeedbackFor(d, i), d.tables[i])
  }

  /** Operators i..3 updated in place, in order. */
  function RunOperators(h: Host, ops: seq<Operator>, i: int, d: Drive): (r: seq<Operator>)
    requires Valid(h) && DriveOk(h, d) && |ops| == 4 && 0 <= i <= 4
    ensures |r| == 4
    decreases 4 - i
  {
    if i == 4 then ops
    else RunOperators(h, ops[i := OperatorTick(h, ops, i, d)], i + 1, d)
  }

  /** Contribution of operator i to the output mix. */
  function MixTerm(h: Host, ops: seq<Operator>, d: Drive, i: int): real
    requires DriveOk(h, d) && |ops| == 4 && 0 <= i < 4
  {
    ops[i].out * d.routes[i][MixColumn]
  }

  /** The output mix: the sum over i = 0..3 of `out[i] * modMatrix[algo][i][4]`. */
  function Mix(h: Host, ops: seq<Operator>, d: Drive): real
    requires DriveOk(h, d) && |ops| == 4
  {
    MixTerm(h, ops, d, 0) + MixTerm(h, ops, d, 1) + MixTerm(h, ops, d, 2) + MixTerm(h, ops, d, 3)
  }

  // ------------------------------------------------------------------- tick

  /** The parameters in force after the edges of this tick. */
  function LatchedParams(v: Voice, c: Controls): (p: Params)
    requires WellFormed(v) && ControlsShaped(c)
    ensures ParamsInRange(p)
  {
    if c.trigger then Latch(c) else v.params
  }

  /** Entry of the ratio table operator i uses under the latched selection. */
  function RatioFor(h: Host, p: Params, i: int): (ratio: real)
    requires Valid(h) && ParamsInRange(p) && 0 <= i < 4
    ensures 0 <= RatioMatrix[p.ratioIndex][i] < |h.ratios|
    ensures ratio == h.ratios[RatioMatrix[p.ratioIndex][i]]
    ensures ratio > 0.0
  {
    RatioSelection(p.ratioIndex);
    h.ratios[RatioMatrix[p.ratioIndex][i]]
  }

  /** The ratios of the four operators under the latched selection. */
  function RatiosFor(h: Host, p: Params): (ratios: seq<real>)
    requires Valid(h) && ParamsInRange(p)
    ensures |ratios| == 4 && forall i | 0 <= i < 4 :: ratios[i] == RatioFor(h, p, i) && ratios[i] > 0.0
    ensures forall i | 0 <= i < 4 ::
      0 <= RatioMatrix[p.ratioIndex][i] < |h.ratios| && ratios[i] == h.ratios[RatioMatrix[p.ratioIndex][i]]
  {
    [RatioFor(h, p, 0), RatioFor(h, p, 1), RatioFor(h, p, 2), RatioFor(h, p, 3)]
  }

  /** The routing of the latched algorithm, as `Algorithm` describes it. */
  function RoutesFor(p: Params): (routes: seq<seq<real>>)
    requires ParamsInRange(p)
    ensures |routes| == 4 && forall j | 0 <= j < 4 :: |routes[j]| == MixColumn + 1
    ensures forall j, k | 0 <= j < 4 && 0 <= k <= MixColumn :: routes[j][k] == Route(p.algo, j, k)
    ensures forall j, i | 0 <= i <= j < 4 :: routes[j][i] == 0.0
    ensures forall j | 0 <= j < 4 :: 0.0 <= routes[j][MixColumn] <= 1.0
    ensures routes[0][MixColumn] + routes[1][MixColumn] + routes[2][MixColumn] + routes[3][MixColumn] <= 1.0
  {
    Algorithm(p.algo);
    ModMatrix[p.algo]
  }

  /** The wavetables of the four operators under the latched selection. */
  function TablesFor(p: Params): (tables: seq<int>)
    requires ParamsInRange(p)
    ensures tables == [p.table / 8, p.table % 8, p.table / 8, p.table % 8]
    ensures forall i | 0 <= i < 4 :: 0 <= tables[i] < WaveTableCount
  {
    WaveSelection(p.table);
    TableMatrix[p.table]
  }

  /** The drive of a tick: pitch and amplitudes from the advanced ramps,
      routing, ratios and wavetables from the latched selections. */
  function DriveFor(h: Host, p: Params, rs: seq<Ramp>, time: real): (d: Drive)
    requires Valid(h) && ParamsInRange(p) && |rs| == 3
    ensures DriveOk(h, d)
    ensures d.pitch == Pitch(p, rs) && d.amp0 == rs[0].out && d.amp1 == rs[1].out
    ensures d.index == p.index && d.feedback == p.feedback && d.time == time
    ensures forall j, k | 0 <= j < 4 && 0 <= k <= MixColumn :: d.routes[j][k] == Route(p.algo, j, k)
    ensures forall i | 0 <= i < 4 :: d.ratios[i] == RatioFor(h, p, i)
    // operators 0 and 2 read wavetable `selection / 8`, 1 and 3 `selection % 8`
    ensures d.tables == [p.table / 8, p.table % 8, p.table / 8, p.table % 8]
  {
    Drive(Pitch(p, rs), time, rs[0].out, rs[1].out, p.index, p.feedback,
          RoutesFor(p), RatiosFor(h, p), TablesFor(p))
  }

  /** The mix scaled by the output gain and the latched level. */
  function Level(m: real, p: Params): real {
    m * OutputGain * p.level
  }

  /** The four debug outputs: each operator's output. */
  function Taps(ops: seq<Operator>): (taps: seq<real>)
    requires |ops| == 4
    ensures |taps| == 4 && forall i | 0 <= i < 4 :: taps[i] == ops[i].out
  {
    [ops[0].out, ops[1].out, ops[2].out, ops[3].out]
  }

  /** One call of `PSIOP::process`. */
  function Tick(h: Host, v: Voice, c: Controls): (o: Output)
    requires Valid(h) && WellFormed(v) && ControlsShaped(c)
    ensures WellFormed(o.voice)
    // parameters change on a trigger tick and only then
    ensures c.trigger ==> o.voice.params == Latch(c)
    ensures !c.trigger ==> o.voice.params == v.params
    ensures |o.taps| == 4 && forall i | 0 <= i < 4 :: o.taps[i] == o.voice.ops[i].out
  {
    var p := LatchedParams(v, c);
    var rs := AdvanceRamps(h, EdgeRamps(v.ramps, c), p, c.sampleTime);
    var d := DriveFor(h, p, rs, c.sampleTime);
    var ops := RunOperators(h, v.ops, 0, d);
    Output(Voice(ops, rs, p), Level(Mix(h, ops, d), p), Taps(ops))
  }

  // ------------------------------------------------------- operator lemmas

  /** Operators before index i as already updated, from i on as they were. */
  function Midway(r: seq<Operator>, ops: seq<Operator>, i: int): (m: seq<Operator>)
    requires |r| == 4 && |ops| == 4 && 0 <= i <= 4
    ensures |m| == 4
    ensures forall j | 0 <= j < i :: m[j] == r[j]
    ensures forall j | i <= j < 4 :: m[j] == ops[j]
  {
    r[..i] + ops[i..]
  }

  /** The in-place loop: operator k is updated from the operators as they
      stand when its turn comes — this tick's values below k, last tick's
      from k on. */
  lemma {:induction false} RunOperatorsInPlace(h: Host, ops: seq<Operator>, i: int, d: Drive)
    requires Valid(h) && DriveOk(h, d) && |ops| == 4 && 0 <= i <= 4
    ensures var r := RunOperators(h, ops, i, d);
      && (forall j | 0 <= j < i :: r[j] == ops[j])
      && (forall k | i <= k < 4 :: r[k] == OperatorTick(h, Midway(r, ops, k), k, d))
    decreases 4 - i
  {
    if i < 4 {
      var ops1 := ops[i := OperatorTick(h, ops, i, d)];
      RunOperatorsInPlace(h, ops1, i + 1, d);
      var r := RunOperators(h, ops1, i + 1, d);
      assert r == RunOperators(h, ops, i, d);
      assert Midway(r, ops, i) == ops;
      forall k | i < k < 4
        ensures Midway(r, ops1, k) == Midway(r, ops, k)
      {
      }
    }
  }

  /** A source with routing weight 0 contributes the same (nothing) whatever
      its output. */
  lemma Unrouted(x: real, y: real, index: real, w: real)
    requires w == 0.0
    ensures x * index * w == y * index * w
  {
  }

  /** FM input of operator i reads only operators j < i: the routing is
      feed-forward, so any two operator vectors whose outputs agree below i
      give the same FM input. */
  lemma FmReadsOnlyEarlier(h: Host, a: seq<Operator>, b: seq<Operator>, d: Drive, i: int)
    requires DriveOk(h, d) && |a| == 4 && |b| == 4 && 0 <= i < 4
    requires forall j | 0 <= j < i :: a[j].out == b[j].out
    ensures FmInput(h, a, d, i) == FmInput(h, b, d, i)
  {
    SameTerm(h, a, b, d, 0, i);
    SameTerm(h, a, b, d, 1, i);
    SameTerm(h, a, b, d, 2, i);
    SameTerm(h, a, b, d, 3, i);
  }

  /** One source's contribution agrees when its outputs agree or its
      routing weight is 0. */
  lemma SameTerm(h: Host, a: seq<Operator>, b: seq<Operator>, d: Drive, j: int, i: int)
    requires DriveOk(h, d) && |a| == 4 && |b| == 4 && 0 <= j < 4 && 0 <= i < 4
    requires j < i ==> a[j].out == b[j].out
    ensures FmTerm(h, a, d, j, i) == FmTerm(h, b, d, j, i)
  {
    if j >= i {
      Unrouted(a[j].out, b[j].out, d.index, d.routes[j][i]);
    }
  }

  /** Operator k of the finished loop, as `RunOperatorsInPlace` states it. */
  lemma InPlaceAt(h: Host, ops: seq<Operator>, d: Drive, k: int, r: seq<Operator>)
    requires Valid(h) && DriveOk(h, d) && |ops| == 4 && 0 <= k < 4
    requires r == RunOperators(h, ops, 0, d)
    ensures r[k] == OperatorTick(h, Midway(r, ops, k), k, d)
  {
    RunOperatorsInPlace(h, ops, 0, d);
  }

  /** FM is read within the tick: operator i is processed with the FM input
      computed from the outputs the loop leaves behind, which for the
      sources j < i that matter are this tick's outputs. */
  lemma SameTickFm(h: Host, ops: seq<Operator>, d: Drive, i: int, r: seq<Operator>)
    requires Valid(h) && DriveOk(h, d) && |ops| == 4 && 0 <= i < 4
    requires r == RunOperators(h, ops, 0, d)
    ensures r[i] == Process(h, Tuned(h, ops[i], d, i), d.time, Amplitude(d, i),
                            FmInput(h, r, d, i), FeedbackFor(d, i), d.tables[i])
  {
    InPlaceAt(h, ops, d, i, r);
    var m := Midway(r, ops, i);
    FmReadsOnlyEarlier(h, m, r, d, i);
    assert m[i] == ops[i];
  }

  /** What the update of operator i does, field by field: retuned to the
      drive's pitch and its ratio, scaled by its amplitude ramp (ramp 0 for
      operators 0 and 2, ramp 1 for 1 and 3), reading its wavetable at the
      wrapped phase offset by its own feedback. */
  lemma UpdatedOperator(h: Host, ops: seq<Operator>, d: Drive, i: int, r: seq<Operator>)
    requires Valid(h) && DriveOk(h, d) && |ops| == 4 && 0 <= i < 4 && |r| == 4
    requires r[i] == Process(h, Tuned(h, ops[i], d, i), d.time, Amplitude(d, i),
                             FmInput(h, r, d, i), FeedbackFor(d, i), d.tables[i])
    ensures r[i].freq == Frequency(h, d.pitch, d.ratios[i])
    ensures ScaledBy(r[i], Amplitude(d, i))
    ensures Amplitude(d, i) == 0.0 ==> r[i].out == 0.0
    ensures r[i].wave == ReadWave(h, d.tables[i],
                                  EucMod1(h, ReadPosition(r[i].phase, FeedbackFor(d, i), ops[i].feedbackSample)))
  {
  }

  /** The same for operator i of the whole loop. */
  lemma TickedOperator(h: Host, ops: seq<Operator>, d: Drive, i: int, r: seq<Operator>)
    requires Valid(h) && DriveOk(h, d) && |ops| == 4 && 0 <= i < 4
    requires r == RunOperators(h, ops, 0, d)
    ensures r[i].freq == Frequency(h, d.pitch, d.ratios[i])
    ensures ScaledBy(r[i], Amplitude(d, i))
    ensures Amplitude(d, i) == 0.0 ==> r[i].out == 0.0
    ensures r[i].wave == ReadWave(h, d.tables[i],
                                  EucMod1(h, ReadPosition(r[i].phase, FeedbackFor(d, i), ops[i].feedbackSample)))
  {
    SameTickFm(h, ops, d, i, r);
    UpdatedOperator(h, ops, d, i, r);
  }

  /** Operators 0 and 2 are scaled by the drive's first amplitude `a0`,
      operators 1 and 3 by its second amplitude `a1`. */
  lemma PassPairing(h: Host, ops: seq<Operator>, d: Drive, r: seq<Operator>, a0: real, a1: real)
    requires Valid(h) && DriveOk(h, d) && |ops| == 4
    requires r == RunOperators(h, ops, 0, d)
    requires d.amp0 == a0 && d.amp1 == a1
    ensures ScaledBy(r[0], a0) && ScaledBy(r[2], a0)
    ensures ScaledBy(r[1], a1) && ScaledBy(r[3], a1)
  {
    TickedOperator(h, ops, d, 0, r);
    TickedOperator(h, ops, d, 1, r);
    TickedOperator(h, ops, d, 2, r);
    TickedOperator(h, ops, d, 3, r);
  }

  /** With both amplitudes 0 every operator output is 0. */
  lemma PassSilent(h: Host, ops: seq<Operator>, d: Drive, r: seq<Operator>)
    requires Valid(h) && DriveOk(h, d) && |ops| == 4
    requires r == RunOperators(h, ops, 0, d)
    requires d.amp0 == 0.0 && d.amp1 == 0.0
    ensures forall i | 0 <= i < 4 :: r[i].out == 0.0
  {
    forall i | 0 <= i < 4
      ensures r[i].out == 0.0
    {
      TickedOperator(h, ops, d, i, r);
    }
  }

  /** Every operator is tuned to `FREQ_C4 * 2^pitch * ratio` for the drive's
      pitch and its own ratio, whatever frequency it had before. */
  lemma PassTuning(h: Host, ops: seq<Operator>, d: Drive, r: seq<Operator>, pitch: real, ratios: seq<real>)
    requires Valid(h) && DriveOk(h, d) && |ops| == 4
    requires r == RunOperators(h, ops, 0, d)
    requires d.pitch == pitch && d.ratios == ratios
    ensures forall i | 0 <= i < 4 :: r[i].freq == Frequency(h, pitch, ratios[i])
  {
    forall i | 0 <= i < 4
      ensures r[i].freq == Frequency(h, pitch, ratios[i])
    {
      TickedOperator(h, ops, d, i, r);
    }
  }

  /** Operator 0 reads at its phase offset by the feedback amount `fb` times
      its previous sample; operators 1..3 read at their phase; operators 0
      and 2 read wavetable `sel / 8`, operators 1 and 3 wavetable `sel % 8`. */
  lemma PassFeedback(h: Host, ops: seq<Operator>, d: Drive, r: seq<Operator>, fb: real, sel: int)
    requires Valid(h) && DriveOk(h, d) && |ops| == 4
    requires r == RunOperators(h, ops, 0, d)
    requires d.feedback == fb && d.tables == [sel / 8, sel % 8, sel / 8, sel % 8]
    ensures r[0].wave == ReadWave(h, sel / 8, EucMod1(h, ReadPosition(r[0].phase, fb, ops[0].feedbackSample)))
    ensures r[1].wave == ReadWave(h, sel % 8, EucMod1(h, r[1].phase))
    ensures r[2].wave == ReadWave(h, sel / 8, EucMod1(h, r[2].phase))
    ensures r[3].wave == ReadWave(h, sel % 8, EucMod1(h, r[3].phase))
  {
    TickedOperator(h, ops, d, 0, r);
    TickedOperator(h, ops, d, 1, r);
    TickedOperator(h, ops, d, 2, r);
    TickedOperator(h, ops, d, 3, r);
    assert ReadPosition(r[1].phase, 0.0, ops[1].feedbackSample) == r[1].phase;
    assert ReadPosition(r[2].phase, 0.0, ops[2].feedbackSample) == r[2].phase;
    assert ReadPosition(r[3].phase, 0.0, ops[3].feedbackSample) == r[3].phase;
  }

  /** A product with a weight in [0, 1] is no larger in magnitude than the
      weight when the other factor lies in [-1, 1]. */
  lemma WeightedWithin(x: real, w: real)
    requires -1.0 <= x <= 1.0 && 0.0 <= w <= 1.0
    ensures -w <= x * w <= w
  {
    NonNegativeProduct(1.0 - x, w);
    NonNegativeProduct(x + 1.0, w);
  }

  /** Scaling a value in [-1, 1] by a non-negative gain keeps it within the gain. */
  lemma ScaledWithin(m: real, g: real)
    requires -1.0 <= m <= 1.0 && g >= 0.0
    ensures -g <= m * g <= g
  {
    NonNegativeProduct(1.0 - m, g);
    NonNegativeProduct(m + 1.0, g);
  }

  /** The product of a value in [-1, 1] and a weight in [0, 1], returned
      as a value bounded by the weight. */
  lemma WeightedTerm(x: real, w: real) returns (p: real)
    requires -1.0 <= x <= 1.0 && 0.0 <= w <= 1.0
    ensures p == x * w
    ensures -w <= p <= w
  {
    p := x * w;
    WeightedWithin(x, w);
  }

  /** Four terms each bounded by its weight, weights summing to at most 1. */
  lemma WithinWeights(p0: real, p1: real, p2: real, p3: real, w0: real, w1: real, w2: real, w3: real)
    requires -w0 <= p0 <= w0 && -w1 <= p1 <= w1 && -w2 <= p2 <= w2 && -w3 <= p3 <= w3
    requires w0 + w1 + w2 + w3 <= 1.0
    ensures -1.0 <= p0 + p1 + p2 + p3 <= 1.0
  {
  }

  /** A weighted sum of four values in [-1, 1], with non-negative weights
      summing to at most 1, lies in [-1, 1]. */
  lemma WeightedSumWithinUnit(x0: real, x1: real, x2: real, x3: real,
                              w0: real, w1: real, w2: real, w3: real)
    requires -1.0 <= x0 <= 1.0 && -1.0 <= x1 <= 1.0 && -1.0 <= x2 <= 1.0 && -1.0 <= x3 <= 1.0
    requires 0.0 <= w0 <= 1.0 && 0.0 <= w1 <= 1.0 && 0.0 <= w2 <= 1.0 && 0.0 <= w3 <= 1.0
    requires w0 + w1 + w2 + w3 <= 1.0
    ensures -1.0 <= x0 * w0 + x1 * w1 + x2 * w2 + x3 * w3 <= 1.0
  {
    var p0 := WeightedTerm(x0, w0);
    var p1 := WeightedTerm(x1, w1);
    var p2 := WeightedTerm(x2, w2);
    var p3 := WeightedTerm(x3, w3);
    WithinWeights(p0, p1, p2, p3, w0, w1, w2, w3);
  }

  /** With operator outputs in [-1, 1] the mix stays in [-1, 1]: the mix
      weights are non-negative and sum to at most 1. */
  lemma MixWithinUnit(h: Host, ops: seq<Operator>, d: Drive)
    requires DriveOk(h, d) && |ops| == 4
    requires forall i | 0 <= i < 4 :: -1.0 <= ops[i].out <= 1.0
    ensures -1.0 <= Mix(h, ops, d) <= 1.0
  {
    WeightedSumWithinUnit(ops[0].out, ops[1].out, ops[2].out, ops[3].out,
      d.routes[0][MixColumn], d.routes[1][MixColumn], d.routes[2][MixColumn], d.routes[3][MixColumn]);
  }

  /** Dot product of the operator outputs with the mix column of algorithm
      `a`, read straight from the modulation matrix. */
  function MixColumnDot(ops: seq<Operator>, a: int): real
    requires |ops| == 4 && 0 <= a < AlgorithmCount
  {
    ops[0].out * Route(a, 0, MixColumn) + ops[1].out * Route(a, 1, MixColumn)
    + ops[2].out * Route(a, 2, MixColumn) + ops[3].out * Route(a, 3, MixColumn)
  }

  /** The mix of a drive gathered for algorithm `p.algo` is the dot product
      of the outputs with that algorithm's mix column; with outputs in
      [-1, 1] the output sample lies within 4 times the level. */
  lemma LevelledMix(h: Host, ops: seq<Operator>, d: Drive, p: Params)
    requires DriveOk(h, d) && |ops| == 4 && ParamsInRange(p)
    requires forall j | 0 <= j < 4 :: d.routes[j][MixColumn] == Route(p.algo, j, MixColumn)
    ensures Mix(h, ops, d) == MixColumnDot(ops, p.algo)
    ensures (forall i | 0 <= i < 4 :: -1.0 <= ops[i].out <= 1.0) ==>
      -OutputGain * p.level <= Level(Mix(h, ops, d), p) <= OutputGain * p.level
  {
    var m := Mix(h, ops, d);
    var g := OutputGain * p.level;
    assert Level(m, p) == m * g;
    if forall i | 0 <= i < 4 :: -1.0 <= ops[i].out <= 1.0 {
      MixWithinUnit(h, ops, d);
      ScaledWithin(m, g);
    }
  }

  /** A mix of silent operators is a silent sample. */
  lemma SilentMix(h: Host, ops: seq<Operator>, d: Drive, p: Params)
    requires DriveOk(h, d) && |ops| == 4
    requires forall i | 0 <= i < 4 :: ops[i].out == 0.0
    ensures Level(Mix(h, ops, d), p) == 0.0
  {
    assert Mix(h, ops, d) == 0.0;
  }

  /** The pitch of a tick from the advanced ramps: held at the start pitch
      while the pitch-ramp rate is at or below 0.2 (the pitch ramp is then
      left untouched), otherwise `crossfade(endPitch, startPitch, out)` of
      the stepped pitch ramp, which stays between the two pitches. */
  lemma Glide(h: Host, rs: seq<Ramp>, p: Params, time: real)
    requires Valid(h) && |rs| == 3 && |p.rates| == 3
    requires 0.0 <= rs[2].out <= 1.0 && time >= 0.0
    ensures var rs' := AdvanceRamps(h, rs, p, time);
      !Gliding(p) ==> Pitch(p, rs') == p.startPitch && rs'[2] == rs[2]
    ensures var rs' := AdvanceRamps(h, rs, p, time);
      Gliding(p) ==>
        && rs'[2] == Step(h, rs[2], GlideShape, 0.0, 1.0 - p.rates[2], time, true)
        && Pitch(p, rs') == Crossfade(p.endPitch, p.startPitch, rs'[2].out)
        && Min(p.endPitch, p.startPitch) <= Pitch(p, rs') <= Max(p.endPitch, p.startPitch)
  {
    var rs' := AdvanceRamps(h, rs, p, time);
    if Gliding(p) {
      StepKeepsUnitRange(h, rs[2], GlideShape, 0.0, 1.0 - p.rates[2], time, true);
      CrossfadeBetween(p.endPitch, p.startPitch, rs'[2].out);
    }
  }

  // ------------------------------------------------------ whole-tick lemmas

  /** The parts of a tick, each named by the function that computes it. */
  lemma TickParts(h: Host, v: Voice, c: Controls, o: Output)
    requires Valid(h) && WellFormed(v) && ControlsShaped(c) && o == Tick(h, v, c)
    ensures o.voice.params == LatchedParams(v, c)
    ensures o.voice.ramps == AdvanceRamps(h, EdgeRamps(v.ramps, c), o.voice.params, c.sampleTime)
    ensures var d := DriveFor(h, o.voice.params, o.voice.ramps, c.sampleTime);
      && o.voice.ops == RunOperators(h, v.ops, 0, d)
      && o.sample == Level(Mix(h, o.voice.ops, d), o.voice.params)
  {
  }

  /** The sample is the dot product of the new operator outputs with the
      mix column of the latched algorithm, times 4, times the level; with
      outputs in [-1, 1] it lies within 4 times the level. */
  lemma SampleIsWeightedMix(h: Host, v: Voice, c: Controls, o: Output)
    requires Valid(h) && WellFormed(v) && ControlsShaped(c) && o == Tick(h, v, c)
    ensures o.sample == Level(MixColumnDot(o.voice.ops, o.voice.params.algo), o.voice.params)
    ensures (forall i | 0 <= i < 4 :: -1.0 <= o.voice.ops[i].out <= 1.0) ==>
      -OutputGain * o.voice.params.level <= o.sample <= OutputGain * o.voice.params.level
  {
    TickParts(h, v, c, o);
    LevelledMix(h, o.voice.ops, DriveFor(h, o.voice.params, o.voice.ramps, c.sampleTime), o.voice.params);
  }

  /** A choke silences the voice within the same tick: all three ramps are
      at rest, so every operator has amplitude 0 and the sample is 0 —
      whether or not a trigger arrived with it. */
  lemma ChokeSilences(h: Host, v: Voice, c: Controls, o: Output)
    requires Valid(h) && WellFormed(v) && ControlsShaped(c) && c.choke && o == Tick(h, v, c)
    ensures o.voice.ramps == [Idle, Idle, Idle]
    ensures forall i | 0 <= i < 4 :: o.voice.ops[i].out == 0.0
    ensures o.sample == 0.0
  {
    TickParts(h, v, c, o);
    var p := o.voice.params;
    IdleIsFixedPoint(h, 0.0, 0.0, p.rates[0], c.sampleTime, false);
    IdleIsFixedPoint(h, 0.0, 0.0, p.rates[1], c.sampleTime, false);
    IdleIsFixedPoint(h, GlideShape, 0.0, 1.0 - p.rates[2], c.sampleTime, true);
    assert o.voice.ramps == [Idle, Idle, Idle];
    var d := DriveFor(h, p, o.voice.ramps, c.sampleTime);
    PassSilent(h, v.ops, d, o.voice.ops);
    SilentMix(h, o.voice.ops, d, p);
  }

  /** Without a choke, a trigger latches new values and restarts the attack
      of both amplitude ramps from wherever they stood: each moves up toward
      1, strictly once time passes, and keeps its gate until it gets there. */
  lemma TriggerRestrikes(h: Host, v: Voice, c: Controls, o: Output)
    requires Valid(h) && Invariant(v) && ControlsShaped(c) && o == Tick(h, v, c)
    requires c.trigger && !c.choke && c.sampleTime >= 0.0
    ensures o.voice.params == Latch(c)
    ensures forall k | 0 <= k < 2 ::
      && v.ramps[k].out <= o.voice.ramps[k].out <= 1.0
      && (o.voice.ramps[k].out < 1.0 ==> o.voice.ramps[k].gate)
    // with time passing, a ramp below 1 strictly rises
    ensures c.sampleTime > 0.0 ==> forall k | 0 <= k < 2 ::
      v.ramps[k].out < 1.0 ==> v.ramps[k].out < o.voice.ramps[k].out
  {
    TickParts(h, v, c, o);
    var struck := EdgeRamps(v.ramps, c);
    assert struck == Strike(v.ramps);
    assert Target(struck[0]) == 1.0 && Target(struck[1]) == 1.0;
  }

  /** The pitch of a tick: held at the start pitch while the pitch-ramp
      rate is at or below 0.2 (and the pitch ramp is then left untouched),
      otherwise swept between the end and start pitch by the pitch ramp;
      every operator's frequency is `FREQ_C4 * 2^pitch * ratio`. */
  lemma PitchGlide(h: Host, v: Voice, c: Controls, o: Output)
    requires Valid(h) && Invariant(v) && ControlsShaped(c) && c.sampleTime >= 0.0
    requires o == Tick(h, v, c)
    ensures !Gliding(o.voice.params) ==>
      && Pitch(o.voice.params, o.voice.ramps) == o.voice.params.startPitch
      && o.voice.ramps[2] == EdgeRamps(v.ramps, c)[2]
    ensures Gliding(o.voice.params) ==>
      var p := o.voice.params; var pitch := Pitch(p, o.voice.ramps);
      && o.voice.ramps[2] == Step(h, EdgeRamps(v.ramps, c)[2], GlideShape, 0.0, 1.0 - p.rates[2], c.sampleTime, true)
      && pitch == Crossfade(p.endPitch, p.startPitch, o.voice.ramps[2].out)
      && Min(p.endPitch, p.startPitch) <= pitch <= Max(p.endPitch, p.startPitch)
    ensures forall i | 0 <= i < 4 ::
      o.voice.ops[i].freq == Frequency(h, Pitch(o.voice.params, o.voice.ramps), RatioFor(h, o.voice.params, i))
  {
    TickParts(h, v, c, o);
    var p := o.voice.params;
    var d := DriveFor(h, p, o.voice.ramps, c.sampleTime);
    Glide(h, EdgeRamps(v.ramps, c), p, c.sampleTime);
    PassTuning(h, v.ops, d, o.voice.ops, Pitch(p, o.voice.ramps), d.ratios);
  }

  /** Operators 0 and 2 follow amplitude ramp 0 and operators 1 and 3
      follow amplitude ramp 1. */
  lemma OperatorPairing(h: Host, v: Voice, c: Controls, o: Output)
    requires Valid(h) && WellFormed(v) && ControlsShaped(c) && o == Tick(h, v, c)
    ensures ScaledBy(o.voice.ops[0], o.voice.ramps[0].out) && ScaledBy(o.voice.ops[2], o.voice.ramps[0].out)
    ensures ScaledBy(o.voice.ops[1], o.voice.ramps[1].out) && ScaledBy(o.voice.ops[3], o.voice.ramps[1].out)
  {
    TickParts(h, v, c, o);
    PassPairing(h, v.ops, DriveFor(h, o.voice.params, o.voice.ramps, c.sampleTime), o.voice.ops,
                o.voice.ramps[0].out, o.voice.ramps[1].out);
  }

  /** Only operator 0 feeds back: its read position is offset by the
      latched feedback amount times its previous sample, while operators
      1..3 read at their wrapped phase; operators 0 and 2 read wavetable
      `selection / 8`, operators 1 and 3 wavetable `selection % 8`. */
  lemma FeedbackOnlyOnFirst(h: Host, v: Voice, c: Controls, o: Output)
    requires Valid(h) && WellFormed(v) && ControlsShaped(c) && o == Tick(h, v, c)
    ensures var sel := o.voice.params.table;
      o.voice.ops[0].wave == ReadWave(h, sel / 8,
        EucMod1(h, ReadPosition(o.voice.ops[0].phase, o.voice.params.feedback, v.ops[0].feedbackSample)))
    ensures var sel := o.voice.params.table;
      && o.voice.ops[1].wave == ReadWave(h, sel % 8, EucMod1(h, o.voice.ops[1].phase))
      && o.voice.ops[2].wave == ReadWave(h, sel / 8, EucMod1(h, o.voice.ops[2].phase))
      && o.voice.ops[3].wave == ReadWave(h, sel % 8, EucMod1(h, o.voice.ops[3].phase))
  {
    TickParts(h, v, c, o);
    PassFeedback(h, v.ops, DriveFor(h, o.voice.params, o.voice.ramps, c.sampleTime), o.voice.ops,
                 o.voice.params.feedback, o.voice.params.table);
  }

  /** A tick with non-negative sample time keeps the voice invariant: the
      shape of the state, the latched values in range, and every ramp in
      [0, 1]. */
  lemma TickPreservesInvariant(h: Host, v: Voice, c: Controls)
    requires Valid(h) && Invariant(v) && ControlsShaped(c) && c.sampleTime >= 0.0
    ensures Invariant(Tick(h, v, c).voice)
  {
    var o := Tick(h, v, c);
    TickParts(h, v, c, o);
    AdvanceKeepsUnitRange(h, EdgeRamps(v.ramps, c), o.voice.params, c.sampleTime);
  }
}
